=== FILE: README.md ===
# PomodoroTask in Dafny

A model of the core of the PomodoroTask plugin for Obsidian (`main.ts`). The
plugin binds a Pomodoro timer to a task line in a Markdown note. When a work
interval finishes, it writes a completion counter such as `[<tomato>:: 3/4]`
into that line. Its side view lists the tagged tasks and the subtasks below the
current one.

The model has five modules:

- `Text` (text.dfy): the JavaScript string operations the core relies on. These are what `\s` and `\d` match, `includes`, `indexOf`, `replace` with a string pattern, `substring(0, n)` counted in UTF-16 code units, `trim`, and decimal numerals both ways (`${n}` and `parseInt`).
- `Counter` (counter.dfy): the line transform of `logCompletion`.
  - A hand-written parser for the counter label `\[<tomato>::\s*(\d+)(?:\s*\/\s*(\d+))?\]` finds the leftmost label.
  - The label is rewritten with the next count and the same goal, or a first label ` [<tomato>:: 1]` is appended.
  - The leading checkbox `^(\s*[-*+]\s*)\[ \]` is ticked once the goal is reached.
  - The drift check decides whether the document is touched at all.
  - The update is done twice: as a function on the document's lines, and in place on an array of lines.
- `Timer` (timer.dfy): the `TimerService` state machine.
  - The session record is a datatype, and every transition is a function of the old record and the clock.
  - The class `TimerService` holds the record, whether the one-second interval runs, the settings and the statistics object. Its methods update these in place and are proved equal to the transition functions.
  - Lemmas state what the transitions promise: pause accounting, the duration choice, switching, and completion.
- `View` (view.dfy): the line scans of the view.
  - The tagged-task list of `renderTaskList`.
  - The re-anchoring of the session's task line, the subtask scan below it, and the slot-limited selection of `renderSubtasks`.
  - The line edit and session-list update of `toggleSubtask`.
- `Clean` (clean.dfy): `cleanTaskText`. Each global regular-expression replacement is modelled as a left-to-right scan that removes the leftmost match and goes on after it.

The clock (`Date.now()`), today's date (`moment()`), whether the session's file still exists in the vault, and the file's contents are all parameters. A note is its list of lines, as `content.split('\n')` gives it.

## Model

| member | source | states |
|---|---|---|
| Timer.TimerService.constructor | main.ts:58-74 | a new service holds the idle session record and runs no interval |
| Timer.TimerService.StartSession | main.ts:92-115 | the record becomes the started session of the given kind at `now` (`Started`) and the interval runs |
| Timer.StartedFresh | main.ts:92-111 | a started session has the override duration of its kind when one is given, else the setting; it keeps the overrides, has no completed subtasks, is unpaused, and has its full duration left |
| Timer.TimerService.StopSession | main.ts:117-132 | the record becomes the idle baseline (IDLE, no start time, duration 0, no task id, line -1, empty file, text and subtasks, no pause) and the interval stops |
| Timer.TimerService.PauseSession | main.ts:134-141 | only a running, unpaused session gets `pausedTime = now`; otherwise the record is unchanged; afterwards no interval runs |
| Timer.Paused | main.ts:134-141 | an idle or already paused session is unchanged; a running one gets `pausedTime = now` and keeps every other field, and with a set clock its time left is then frozen at the value it had at the pause |
| Timer.PauseIdempotent | main.ts:134-141 | pausing an already paused session changes nothing |
| Timer.TimerService.ResumeSession | main.ts:143-152 | a paused session with a start time has its start moved forward by the pause length and its pause cleared, and the interval restarts; otherwise nothing changes |
| Timer.Resumed | main.ts:143-152 | without a paused, started session nothing changes; otherwise the start moves forward by the length of the pause, the pause is cleared, every other field is kept, and the time left at the resume is the one at the pause |
| Timer.PauseResumeKeepsTimeLeft | main.ts:143-147 | after a pause at `p` and a resume at `r`, the time left at `r` is the time left at `p`, and `d` ms later it equals the time left `d` ms after `p` without the pause |
| Timer.TimerService.StartTick | main.ts:154-166 | the interval runs exactly when the session is not paused |
| Timer.TimerService.ApplyOverrides | main.ts:168-187 | the record becomes `WithOverrides` of the old one |
| Timer.OverridesLive | main.ts:168-181 | both overrides are stored; the duration becomes the work value in WORK and the break value in BREAK and is kept in IDLE; no other field changes |
| Timer.TimerService.ResetSession | main.ts:190-199 | a session that is not idle restarts its clock at `now` and unpauses, and the interval runs; an idle one is unchanged |
| Timer.Reset | main.ts:190-199 | an idle session is unchanged; any other becomes unpaused with kind and duration kept and its whole duration left |
| Timer.ResetRestarts | main.ts:190-199 | after a reset the full duration is left, the session is unpaused, and every field but the start and pause times is kept |
| Timer.IdleIsInert | main.ts:134-219 | with no session, pause, resume, reset and switch change nothing, and the idle baseline has no time left |
| Timer.TimerService.SwitchMode | main.ts:201-219 | the record becomes `Switched` of the old one; afterwards the interval runs exactly when the file resolved (unchanged when idle) |
| Timer.SwitchTwice | main.ts:201-212 | switching twice while the file resolves returns to the original kind, duration, overrides and task binding |
| Timer.SwitchUnresolvedStops | main.ts:213-217 | switching when the file is gone yields exactly the idle baseline of `stopSession` |
| Timer.ConsistentPreserved | main.ts:92-219 | the idle record and every started one have a start time exactly when not idle and are unpaused when idle, and pause, resume, reset, overrides and switch keep this |
| Timer.DurationAgreesPreserved | main.ts:92-219 | pause, resume, reset and switch keep the duration equal to the one the overrides and settings give its kind, and applying overrides establishes it |
| Timer.TimerService.GetTimeLeft | main.ts:228-235 | the result is never negative and equals `TimeLeft` of the record at `now` |
| Timer.TimeLeftBounds | main.ts:228-235 | the time left is at least 0, is 0 without a start time, and is at most the full duration once a running session has started |
| Timer.TimeLeftFrozen | main.ts:231-234 | while paused, the time left does not depend on the clock |
| Timer.TimeLeftNonIncreasing | main.ts:231-234 | as the clock advances, the time left never grows |
| Timer.ExpiredIff | main.ts:158-161 | a running session's time left is 0 exactly when its whole duration in milliseconds has elapsed |
| Timer.TimerService.Tick | main.ts:158-162 | the interval callback completes the session exactly when the interval runs and no time is left, and otherwise changes nothing; a completion stops the interval, logs a WORK session as `LogOutcomeOf` (a break writes nothing), and, unless logging throws, leaves the idle record and counts a WORK session in the statistics; a break never touches them |
| Timer.TimerService.CompleteSession | main.ts:237-256 | a WORK session is logged, counted once in `completedSessions` and adds its duration to `totalWorkDuration`, whether or not the line was written; a BREAK leaves the statistics alone; both then stop; when logging throws, nothing after it happens |
| Timer.TimerService.LogCompletion | main.ts:258-319 | the outcome of logging is `LogOutcomeOf` the file's state and the record |
| Timer.LogOutcomeOf | main.ts:260-317 | the line is written exactly when the file resolves and the stored line is non-negative and passes the drift check, and the written document is `LogLines`; a negative line throws |
| Counter.LogLines | main.ts:264-316 | the line count is kept and every other line is unchanged; a line past the end or without the first 5 UTF-16 code units of the task text leaves the document unchanged; otherwise the task line becomes `UpdateLine` of itself |
| Counter.DriftCheckCountsCodeUnits | main.ts:271 | the drift check passes for the task `🔥 Fix bug` on a line holding only `🔥 Fi`, because the emoji counts as two of the five code units |
| Counter.LogInPlace | main.ts:264-312 | on the array of lines: reports a write exactly when the drift check passes, and leaves the array equal to `LogLines` of its old contents |
| Counter.ParseAnnotation | main.ts:274 | a label read at the start of a string is well formed (digit count, optional non-empty digit goal), starts with `[<tomato>::` and ends with `]`; that a goal with blanks around its slash is read is in GoalAtIff and ParseSpacedGoal |
| Counter.GoalAtIff | main.ts:274 | the goal group `(?:\s*\/\s*(\d+))` and its `]` match exactly where whitespace, `/`, whitespace, at least one digit and `]` stand, blanks around the slash included, and the goal read is the digits of the match |
| Counter.GoalFromShape | main.ts:274 | every such goal group is read, with its own digits |
| Counter.ParseSpacedGoal | main.ts:274 | a typed label such as `[<tomato>:: 3 / 5]` reads as count `3` and goal `5`, with the label ending after its `]` |
| Counter.FindAnnotationFrom | main.ts:274-275 | the match is a label lying inside the line, and no label starts before it (the leftmost match) |
| Counter.ParseLabel | main.ts:286-292 | a label as the logger writes it reads back with the same count digits and goal, whatever follows it |
| Text.DigitsValueOfNatToString | main.ts:281-286 | `parseInt` of the numeral written for `n` is `n` |
| Counter.FirstOccurrenceIsMatch | main.ts:295 | the first occurrence of the matched label text is the match itself, so `line.replace(match[0], newLabel)` rewrites the label where it was found |
| Counter.UpdateLineInPlace | main.ts:279-304 | on a line with a label, the update is the label rewritten in place with the next count, ticked exactly when the goal is reached |
| Counter.RelabelReadsBack | main.ts:285-295 | after the rewrite the label is still the leftmost one, at the same place, and reads as count + 1 with the same goal |
| Counter.TickReadsBack | main.ts:297-303 | ticking the leading checkbox keeps the leftmost label where it was |
| Counter.AppendReadsBack | main.ts:306-308 | on a line without a label, the appended ` [<tomato>:: 1]` becomes its leftmost label and reads as count 1 with no goal |
| Counter.UpdateLineCounts | main.ts:273-309 | the counter read after the update is the next reading of the one before: count + 1 with the same goal, or 1 with no goal when there was none |
| Counter.CheckboxAt | main.ts:300-301 | a box found is a `[ ]` preceded only by whitespace and bullets |
| Counter.CheckboxAtIff | main.ts:300-301 | the leading box is found exactly when `^(\s*[-*+]\s*)\[ \]` matches: whitespace, one bullet, whitespace and `[ ]`; the box found is the one of the match |
| Counter.BoxFromShape | main.ts:300-301 | every match of the pattern has its box found |
| Counter.CheckTask | main.ts:302 | ticking keeps the length, changes nothing without a leading box, and otherwise changes only that box's blank, to `x` |
| Counter.TickedBoxGone | main.ts:302 | after ticking, the line has no open leading box |
| Counter.BumpCheckbox | main.ts:297-304 | the leading box stands before the label; without the goal reached the box is unchanged; with it reached no open leading box is left, and the line is the relabelled one with exactly that box's blank turned to `x` |
| Counter.GoalCompletionTicks | main.ts:273-304 | a list item `- [ ] ` with text and the label `n/g`, where `n + 1` reaches `g`, becomes `- [x] ` with the label `n+1/g` and nothing else changed (the second completion of `4/5` on such a line writes `- [x] … 5/5`) |
| Counter.FindsLabel | main.ts:274-275 | on such a line the label after the text is the leftmost one |
| Counter.NoLabelInHead | main.ts:274 | no label starts inside the item's head and text |
| Counter.GoalReachedAt | main.ts:281-297 | the label `n/g` with `n + 1 >= g` reaches its goal, and its next label is `n+1/g` |
| Counter.RelabelAfter | main.ts:295 | rewriting the label after the head keeps the head and puts the next label in its place |
| Counter.TickAfterRelabel | main.ts:297-304 | when the goal is reached, a relabelled `- [ ] ` item is written as `- [x] ` |
| Counter.TickListItem | main.ts:300-302 | ticking turns `- [ ] ` into `- [x] ` |
| Counter.AppendCheckbox | main.ts:306-308 | appending a first label leaves the leading checkbox as it was |
| Text.FindFrom | main.ts:271 | the result is an occurrence at or after the start, and there is none earlier |
| Text.ContainsIff | main.ts:271 | `includes` holds exactly when the pattern occurs somewhere |
| Text.Prefix | main.ts:271 | `substring(0, n)` counts UTF-16 code units: it keeps the longest prefix whose characters fit whole into `n` units, and keeps the high surrogate of the next character exactly when the cut falls inside its surrogate pair |
| Text.PlainLength | main.ts:271 | text inside the Basic Multilingual Plane has as many code units as characters |
| Text.PrefixOfPlainText | main.ts:271 | on such text the cut is the first `n` characters, or the whole text when it is shorter |
| Text.PrefixCountsCodeUnits | main.ts:271 | five units of `🔥 Fix bug` keep only four characters, because the emoji takes two units |
| Text.PrefixSplitsPair | main.ts:271 | three units of `ab🔥` keep `ab` and the emoji's high surrogate |
| Text.Trim | main.ts:876 | the result is the input between its leading and trailing whitespace runs, and neither of its ends is whitespace |
| Text.TrimOfTrimmed | main.ts:496 | a string with no whitespace at either end is its own trim |
| Text.NatToString | main.ts:286 | the numeral of a count is non-empty, digits only, with no leading zero unless it is 0 |
| View.OpenBoxEnd | main.ts:870 | a match of `^\s*[-*] \[ \]` ends just after a `[ ]` |
| View.OpenBoxEndIff | main.ts:870 | a line is an open task line exactly when `^\s*[-*] \[ \]` matches it: whitespace, `-` or `*`, a blank and `[ ]`; the end is that of the match |
| View.DoneBoxEnd | main.ts:988 | a match of `^\s*[-*] \[x\]` (either case) ends just after a `[x]` or `[X]` |
| View.DoneBoxEndIff | main.ts:988 | a line is a completed task line exactly when that pattern matches it, in either case |
| View.ListItemsAreTasks | main.ts:987-988 | `- [ ] ` starts an open task line and `- [x] ` a completed one, whatever follows |
| View.OpenOrDone | main.ts:987-988 | no line is both an open and a completed task line |
| View.FindTasks | main.ts:865-879 | the scan returns the tagged open task lines of the document, with the tag trimmed from the settings (`TasksIn`) |
| View.VisitLine | main.ts:872-879 | the `forEach` callback extends the list of the lines before it to the list up to and including its line |
| View.TasksInSound | main.ts:872-878 | every listed task is an open task line carrying the tag, with the line's text minus its checkbox and the first tag, trimmed |
| View.TasksInComplete | main.ts:872-878 | every open task line carrying the tag is listed |
| View.TasksInOrdered | main.ts:872-878 | the list follows the file order, with strictly increasing line numbers |
| View.FirstWith | main.ts:968-973 | the result is a line that contains both the cut key and the tag, and no earlier line from the start does; none means no such line |
| View.Anchor | main.ts:961-974 | the stored line is kept while it still contains the first 15 UTF-16 code units of the task text; when it does not, the result is the first line of the document containing them and the tag, and the stored line only when no line does |
| View.Reanchor | main.ts:961-974 | the loop finds `Anchor` |
| View.ScanEnd | main.ts:991-1000 | the scan ends inside the document, at or after its start |
| View.ScanEndFirstStop | main.ts:991-1000 | no line before the end of the scan is a tagged task line, open or completed, and the line at the end, when inside the document, is one |
| View.VisitSubtaskLine | main.ts:991-1023 | one line of the loop stops the scan exactly when it is a tagged task line, and then the scan ends there; otherwise the candidate lists grow to those of the next line and the scan's end is unchanged |
| View.OpenBetween | main.ts:1002-1009 | every open candidate is an open task line inside the scanned range |
| View.DoneBetween | main.ts:1010-1023 | every completed candidate is a completed task line inside the scanned range |
| View.OpenBetweenComplete | main.ts:1002-1009 | every open task line in the scanned range is an open candidate |
| View.DoneBetweenComplete | main.ts:1010-1023 | every completed task line in the scanned range is a completed candidate |
| View.CandidatesInFileOrder | main.ts:1002-1023 | both candidate lists follow the file order, with strictly increasing line numbers |
| View.OpenInFileOrder | main.ts:1002-1009 | the open candidates follow the file order |
| View.DoneInFileOrder | main.ts:1010-1023 | the completed candidates follow the file order |
| View.OpenBetweenGrows | main.ts:1002-1009 | one more line keeps the open candidates so far as a prefix and adds exactly that line at the end when it is an open task line, nothing otherwise |
| View.DoneBetweenGrows | main.ts:1010-1023 | the same for completed candidates and completed task lines |
| View.OpenOrderStep | main.ts:1002-1009 | one more line keeps the open candidates in file order |
| View.DoneOrderStep | main.ts:1010-1023 | one more line keeps the completed candidates in file order |
| View.ScanSubtasks | main.ts:984-1024 | the loop collects `Subtasks`: the open and completed candidates below the anchor up to the next tagged task |
| View.SubtasksBelongToTask | main.ts:991-1000 | every candidate lies below the anchor, with no tagged task line between them |
| View.Taken | main.ts:1031-1037 | the open subtasks taken are as many as the slots, at most all of them, and none without slots |
| View.TakeOpen | main.ts:1031-1037 | the first loop takes the first `Taken` open candidates in order and spends one slot on each |
| View.TakeDone | main.ts:1040-1056 | the second loop picks `PickDone` |
| View.PickDoneSpec | main.ts:1040-1056 | every completed subtask picked is a shown candidate; every one ticked in this session, and every shown one that bypasses the limit, is picked; those that take a slot are no more than the slots; and a shown one is left out only when the slots are used up |
| View.PickDoneStep | main.ts:1040-1056 | one step of the second loop keeps these facts, from the rest of the list to the whole list |
| View.NoSlotsOnlyBypass | main.ts:1049-1054 | with no slot left, only subtasks that bypass the limit are picked |
| View.SelectionRespectsSlots | main.ts:1027-1056 | the selection starts with the first open candidates in their order, and stops taking them only when the slots (none if negative) are used up; slot users are no more than the slots; completed ones shown are allowed to be; every session one and every bypassing one is shown; a shown completed one is left out only when the slots are used up; once open ones ran out of slots, only bypassing ones follow |
| View.SelectSubtasks | main.ts:1027-1056 | the two loops together compute `Selection` |
| View.Without | main.ts:1154 | the filtered list no longer holds the text, and every other text keeps its number of occurrences |
| View.ToggleLine | main.ts:1149-1153 | toggling keeps the length, and every character it changes is a box's blank turned to `x` when ticking, or an `x` or `X` turned to a blank when unticking; the exact results are in TickLine and UntickLine |
| View.BoxEdit | main.ts:1150-1152 | replacing the first `[ ]`, `[x]` or `[X]` by another box changes at most its middle character |
| View.TickLine | main.ts:1150 | ticking changes only the blank of the first `[ ]`, to `x`, and changes nothing without one |
| View.UntickLine | main.ts:1153 | unticking blanks the middle of the first `[x]`, then the middle of the first `[X]` of what is left, and changes nothing else; a line with neither is unchanged |
| View.SwapMiddle | main.ts:1150-1153 | replacing the first box by one with the same brackets updates only its middle character, and changes nothing when there is no such box |
| View.TickThenUntick | main.ts:1149-1153 | unticking a line just ticked gives it back, when no `[x]` stood before its box and it holds no `[X]` |
| View.ToggleSubtask | main.ts:1143-1161 | only the given line of the array changes, to its toggled form, and the text is pushed onto or filtered out of the session's completed subtasks; an index past the end changes nothing; the service's invariant is kept |
| Clean.StripLabelsKeepsPlain | main.ts:478 | text without counter labels is left as it is |
| Clean.StripTags | main.ts:481 | after tag removal no `#` is followed by a tag character |
| Clean.StripTagsKeepsPlain | main.ts:481 | text without a tag is left as it is |
| Clean.FieldAt | main.ts:484 | an inline field runs from a `[` to the first `]` after it |
| Clean.LastColons | main.ts:484 | the result is the last `::` in the range |
| Clean.FieldAtIff | main.ts:484 | the pattern matches at `[` exactly when an inline field starts there: up to the first `]`, with a `::` after at least one character and no line break after it; the match ends at that `]` |
| Clean.FieldFromShape | main.ts:484 | every such field is the match found at its `[` |
| Clean.StripFieldsKeepsPlain | main.ts:484 | text without an inline field is left as it is |
| Clean.SymbolFrom | main.ts:489-490 | `search` finds a task-plugin symbol, and none occurs earlier |
| Clean.CutAtSymbol | main.ts:489-493 | the cut keeps the longest prefix without a task-plugin symbol |
| Clean.Collapse | main.ts:496 | after collapsing, the only whitespace is plain spaces, never two in a row, and the result starts with a space exactly when the text does; that no symbol comes back is in CollapseNoSymbols, and that each run between words becomes exactly one space is in CollapseRun |
| Clean.CollapseNoSymbols | main.ts:496 | text without a task-plugin symbol has none after collapsing |
| Clean.Visible | main.ts:496 | the characters of a text that are not whitespace, in order, are no more than the text |
| Clean.CollapseKeepsVisible | main.ts:496 | collapsing keeps every character that is not whitespace, in order |
| Clean.CollapseTidy | main.ts:496 | a text already tidy has nothing to collapse |
| Clean.CollapseRun | main.ts:496 | a whitespace run between a piece that does not end in whitespace and one that does not start with it becomes exactly one space, and each piece is collapsed on its own |
| Clean.CollapseLeadingRun | main.ts:496 | a leading whitespace run becomes one space |
| Clean.CollapseAppend | main.ts:496 | after a piece ending in a visible character, the rest collapses on its own |
| Clean.CollapseShift | main.ts:496 | collapsing inside the second half of a text does not depend on the first half |
| Clean.CollapseAgree | main.ts:496 | two texts that agree from given positions on collapse alike from there |
| Clean.TrimTidy | main.ts:496 | trimming keeps single spacing and the absence of symbols |
| Clean.CleanTaskText | main.ts:473-497 | the cleaned text is no longer than the input, holds no task-plugin symbol, has no whitespace at either end, and has only single spaces between words; CleanTaskTextSeparatesWords shows a run between two words left as one space |
| Clean.CleanTaskTextKeepsPlain | main.ts:473-497 | a tidy, trimmed text with no counter label, tag or inline field comes out unchanged |
| Clean.CleanTaskTextSeparatesWords | main.ts:473-497 | two plain words joined by any run of whitespace are cleaned to the two words joined by exactly one space |

## Left out

- All rendering and UI: the view's DOM building, timer digits, statistics panel, floating stats, modals and the settings tab.
- The interval handle of `startTick` and `clearInterval`. A boolean `ticking` says whether the interval runs, and `Tick` models one firing of it.
- Loading a saved record (`loadState`). It replaces the whole session record with the saved one and restarts the interval when that record is not IDLE. A saved record can break `Valid`, so the model starts only from records its own transitions build.
- Saving (`saveState`, `saveAllData`), `Notice` messages, `refreshView` and `updateTimerUI`. These are host calls that do not change the modelled state.
- The vault. Reads and writes become a document given as its lines plus a flag saying whether the file resolves. `split('\n')` and `join('\n')` are not modelled.
- `Date.now()` and `moment().format('YYYY-MM-DD')` are parameters.
- Counter.NextLabel: counts and goals are unbounded integers. JavaScript numbers are doubles, so `parseInt` loses precision above 2^53, a count from 10^21 prints in exponent form, and a numeral of more than 308 digits reads as `Infinity`.
- View.Selection: `subtaskCount` is an integer. The settings tab stores `Number(value)`, which can be fractional or `NaN`.
- Durations are integer minutes. JavaScript numbers are doubles, and fractional or non-finite durations are not modelled. The time left is exact `real` arithmetic, not floating point.
- Interleaving of async continuations: the render-race guard, and awaits that could overlap with other events. Each operation runs to completion.
- `longBreakDuration`, which the timer never reads.
- The tomato emoji and the task-plugin symbols are the characters as the source text spells them (mojibake). They are not the intended emoji.
- Text.Includes: a lone surrogate in the document's lines is not modelled. Lines are strings of whole characters, so a key cut inside a surrogate pair matches only the high half of a whole character.
- The regular expressions are hand-written matchers for the patterns the core uses. There is no general regular-expression engine.
- View functions take the stored task line as a natural number. A negative line while a session is active is not modelled there.
- Clean.StripFields: its contract states only the length bound, with FieldAtIff and StripFieldsKeepsPlain as its partners. That no inline field is left afterwards is not proved.
- Clean.StripLabels: its contract states only the length bound, with StripLabelsKeepsPlain as its partner. A removal can join text into a new label, which a single left-to-right pass does not remove.

=== FILE: clean.dfy ===
/** `cleanTaskText`: the display text of a task, with the counter labels, the
    tags and the inline fields removed, everything from the first task-plugin
    symbol on cut off, and whitespace runs collapsed and trimmed.  Each global
    regular-expression replacement is a left-to-right scan that removes the
    leftmost match and resumes after it. */
module Clean {
  import opened Text
  import Counter

  // ---------------------------------------------------------------------------
  // Step 1: counter labels.

  /** Every counter label from index `i` on removed. */
  function StripLabels(s: string, i: nat): (r: string)
    requires i <= |s|
    decreases |s| - i
    ensures |r| <= |s| - i
  {
    if i == |s| then []
    else
      match Counter.AnnotationAt(s, i)
      case Some(a) => StripLabels(s, i + a.len)
      case None => [s[i]] + StripLabels(s, i + 1)
  }

  /** Text without counter labels is left as it is. */
  lemma {:induction false} StripLabelsKeepsPlain(s: string, i: nat)
    requires i <= |s|
    requires forall j :: i <= j < |s| ==> Counter.AnnotationAt(s, j).None?
    ensures StripLabels(s, i) == s[i..]
    decreases |s| - i
  {
    if i < |s| {
      StripLabelsKeepsPlain(s, i + 1);
      assert s[i..] == [s[i]] + s[i + 1..];
    }
  }

  // ---------------------------------------------------------------------------
  // Step 2: tags, `#[\w\/-]+`.

  predicate TagChar(c: char) {
    ('a' <= c <= 'z') || ('A' <= c <= 'Z') || ('0' <= c <= '9') || c == '_' || c == '/' || c == '-'
  }

  /** The end of the run of tag characters starting at `i`. */
  function SkipTagChars(s: string, i: nat): (r: nat)
    requires i <= |s|
    decreases |s| - i
    ensures i <= r <= |s|
    ensures r < |s| ==> !TagChar(s[r])
  {
    if i < |s| && TagChar(s[i]) then SkipTagChars(s, i + 1) else i
  }

  /** A tag starts at `i`: a `#` followed by at least one tag character. */
  predicate TagAt(s: string, i: nat)
    requires i < |s|
  {
    s[i] == '#' && i + 1 < |s| && TagChar(s[i + 1])
  }

  /** Every tag from index `i` on removed.  What is left holds no tag: a `#`
      is never followed by a tag character. */
  function StripTags(s: string, i: nat): (r: string)
    requires i <= |s|
    decreases |s| - i
    ensures |r| <= |s| - i
    ensures i < |s| && !TagChar(s[i]) && r != [] ==> !TagChar(r[0])
    ensures forall k :: 0 <= k < |r| - 1 && r[k] == '#' ==> !TagChar(r[k + 1])
  {
    if i == |s| then []
    else if TagAt(s, i) then StripTags(s, SkipTagChars(s, i + 1))
    else [s[i]] + StripTags(s, i + 1)
  }

  /** Text without a tag is left as it is. */
  lemma {:induction false} StripTagsKeepsPlain(s: string, i: nat)
    requires i <= |s|
    requires forall j :: i <= j < |s| ==> !TagAt(s, j)
    ensures StripTags(s, i) == s[i..]
    decreases |s| - i
  {
    if i < |s| {
      StripTagsKeepsPlain(s, i + 1);
      assert s[i..] == [s[i]] + s[i + 1..];
    }
  }

  // ---------------------------------------------------------------------------
  // Step 3: inline fields, `\[[^\]]+::.*?\]`.

  /** The last `::` starting at or after `lo` and before `k`. */
  function LastColons(s: string, lo: nat, k: nat): (r: Option<nat>)
    decreases k
    ensures r.Some? ==> lo <= r.value < k && At(s, "::", r.value)
    ensures forall j :: lo <= j < k && (r.None? || r.value < j) ==> !At(s, "::", j)
  {
    if k <= lo then None
    else if At(s, "::", k - 1) then Some(k - 1)
    else LastColons(s, lo, k - 1)
  }

  /** The end of an inline field starting at `i`, if one does.  The field runs
      to the first `]` after its `[`; inside it, after at least one character,
      comes a `::`.  The greedy `[^\]]+` takes the last such `::` that leaves
      no line terminator between it and the `]`, and since an earlier `::`
      leaves a longer stretch, there is a match exactly when the last one
      does. */
  function FieldAt(s: string, i: nat): (r: Option<nat>)
    requires i < |s|
    ensures r.Some? ==> i + 5 <= r.value <= |s| && s[i] == '[' && s[r.value - 1] == ']'
    ensures r.Some? ==> forall k :: i < k < r.value - 1 ==> s[k] != ']'
  {
    if s[i] != '[' then None
    else
      match FindFrom(s, "]", i + 1)
      case None => None
      case Some(e) =>
        assert s[e..e + 1] == "]";
        assert forall k :: i + 1 <= k < e ==> s[k] != ']' by {
          forall k | i + 1 <= k < e ensures s[k] != ']' {
            assert !At(s, "]", k);
            assert s[k..k + 1] == [s[k]];
          }
        }
        match LastColons(s, i + 2, e - 1)
        case None => None
        case Some(j) =>
          if forall k :: j + 2 <= k < e ==> !IsLineTerminator(s[k]) then Some(e + 1) else None
  }

  /** An inline field spans `s[i..n]`: `s[n - 1]` is the first `]` after the
      `[` at `i`, and a `::` at `j`, after at least one character, is followed
      by no line terminator up to that `]`. */
  predicate FieldShape(s: string, i: nat, j: nat, n: nat) {
    && i + 1 < n <= |s| && s[i] == '[' && s[n - 1] == ']'
    && (forall k :: i < k < n - 1 ==> s[k] != ']')
    && i + 2 <= j && j + 3 <= n && At(s, "::", j)
    && (forall k :: j + 2 <= k < n - 1 ==> !IsLineTerminator(s[k]))
  }

  /** The regular expression matches at `i` exactly when an inline field
      starts there, and the match is that field. */
  lemma FieldAtIff(s: string, i: nat)
    requires i < |s|
    ensures FieldAt(s, i).Some? ==> exists j :: FieldShape(s, i, j, FieldAt(s, i).value)
    ensures forall j: nat, n: nat :: FieldShape(s, i, j, n) ==> FieldAt(s, i) == Some(n)
  {
    if FieldAt(s, i).Some? {
      var e := FindFrom(s, "]", i + 1).value;
      var j := LastColons(s, i + 2, e - 1).value;
      assert s[e..e + 1] == "]";
      forall k | i < k < e ensures s[k] != ']' {
        assert !At(s, "]", k);
        assert s[k..k + 1] == [s[k]];
      }
      assert FieldShape(s, i, j, e + 1);
    }
    forall j: nat, n: nat | FieldShape(s, i, j, n) ensures FieldAt(s, i) == Some(n) {
      FieldFromShape(s, i, j, n);
    }
  }

  lemma FieldFromShape(s: string, i: nat, j: nat, n: nat)
    requires FieldShape(s, i, j, n)
    ensures FieldAt(s, i) == Some(n)
  {
    var e := n - 1;
    assert At(s, "]", e) by {
      assert s[e..e + 1] == [s[e]];
    }
    forall k | i + 1 <= k < e ensures !At(s, "]", k) {
      assert s[k..k + 1] == [s[k]];
    }
    assert FindFrom(s, "]", i + 1) == Some(e);
    var j' := LastColons(s, i + 2, e - 1).value;
    assert j <= j';
  }

  /** Text without an inline field is left as it is. */
  lemma {:induction false} StripFieldsKeepsPlain(s: string, i: nat)
    requires i <= |s|
    requires forall j :: i <= j < |s| ==> FieldAt(s, j).None?
    ensures StripFields(s, i) == s[i..]
    decreases |s| - i
  {
    if i < |s| {
      StripFieldsKeepsPlain(s, i + 1);
      assert s[i..] == [s[i]] + s[i + 1..];
    }
  }

  /** Every inline field from index `i` on removed. */
  function StripFields(s: string, i: nat): (r: string)
    requires i <= |s|
    decreases |s| - i
    ensures |r| <= |s| - i
  {
    if i == |s| then []
    else
      match FieldAt(s, i)
      case Some(e) => StripFields(s, e)
      case None => [s[i]] + StripFields(s, i + 1)
  }

  // ---------------------------------------------------------------------------
  // Step 4: the cut at the first task-plugin symbol.

  /** The characters of the symbol class, as the source text spells the
      emoji of the task plugin (recurrence, flag, dates, done, created and the
      priorities). */
  const TaskSymbols: string :=
    "\U{F8FF}\U{FC}\U{EE}\U{C5}\U{E8}\U{EC}\U{D6}\U{201A}\U{2265}\U{F5}\U{B4}\U{FA}\U{FB}\U{EF}\U{222B}\U{3A9}"

  /** The first symbol at or after `i` (`search`). */
  function SymbolFrom(s: string, i: nat): (r: Option<nat>)
    requires i <= |s|
    decreases |s| - i
    ensures r.Some? ==> i <= r.value < |s| && s[r.value] in TaskSymbols
    ensures forall k :: i <= k < |s| && (r.None? || k < r.value) ==> s[k] !in TaskSymbols
  {
    if i == |s| then None else if s[i] in TaskSymbols then Some(i) else SymbolFrom(s, i + 1)
  }

  /** `s` up to its first symbol: the longest prefix of `s` without one. */
  function CutAtSymbol(s: string): (r: string)
    ensures r <= s
    ensures forall k :: 0 <= k < |r| ==> r[k] !in TaskSymbols
    ensures |r| < |s| ==> s[|r|] in TaskSymbols
  {
    match SymbolFrom(s, 0)
    case Some(k) => s[..k]
    case None => s
  }

  // ---------------------------------------------------------------------------
  // Step 5: whitespace.

  /** Every run of whitespace from index `i` on replaced by one space: what is
      left has only plain spaces, never two in a row, and the same characters
      otherwise. */
  function Collapse(s: string, i: nat): (r: string)
    requires i <= |s|
    decreases |s| - i
    ensures |r| <= |s| - i
    ensures r != [] ==> (r[0] == ' ' <==> IsSpace(s[i]))
    ensures forall k :: 0 <= k < |r| && IsSpace(r[k]) ==> r[k] == ' '
    ensures forall k :: 0 <= k < |r| - 1 ==> !(r[k] == ' ' && r[k + 1] == ' ')
  {
    if i == |s| then []
    else if IsSpace(s[i]) then
      var e := Counter.SkipSpaces(s, i);
      assert Counter.SpaceAt(s, i);
      [' '] + Collapse(s, e)
    else
      [s[i]] + Collapse(s, i + 1)
  }

  /** Collapsing writes no task-plugin symbol that was not there: text
      without one stays without one. */
  lemma {:induction false} CollapseNoSymbols(s: string, i: nat)
    requires i <= |s|
    requires forall j :: i <= j < |s| ==> s[j] !in TaskSymbols
    ensures forall k :: 0 <= k < |Collapse(s, i)| ==> Collapse(s, i)[k] !in TaskSymbols
    decreases |s| - i
  {
    if i < |s| {
      var n := if IsSpace(s[i]) then Counter.SkipSpaces(s, i) else i + 1;
      CollapseStep(s, i);
      CollapseNoSymbols(s, n);
      var r, rest := Collapse(s, i), Collapse(s, n);
      forall k | 0 <= k < |r| ensures r[k] !in TaskSymbols {
        if k > 0 {
          assert r[k] == rest[k - 1];
        }
      }
    }
  }

  /** The characters of `s` that are not whitespace, in order. */
  function Visible(s: string): (r: string)
    ensures |r| <= |s|
    ensures forall k :: 0 <= k < |r| ==> !IsSpace(r[k])
  {
    if s == [] then [] else (if IsSpace(s[0]) then [] else [s[0]]) + Visible(s[1..])
  }

  /** `Visible` of the text from `i` on, one character at a time. */
  lemma VisibleFrom(s: string, i: nat)
    requires i < |s|
    ensures Visible(s[i..]) == (if IsSpace(s[i]) then [] else [s[i]]) + Visible(s[i + 1..])
  {
    assert s[i..][0] == s[i] && s[i..][1..] == s[i + 1..];
  }

  /** A run of whitespace shows nothing. */
  lemma {:induction false} VisibleSkipsSpaces(s: string, i: nat, e: nat)
    requires i <= e <= |s| && forall k :: i <= k < e ==> IsSpace(s[k])
    ensures Visible(s[i..]) == Visible(s[e..])
    decreases e - i
  {
    if i < e {
      VisibleFrom(s, i);
      VisibleSkipsSpaces(s, i + 1, e);
    }
  }

  /** Collapsing whitespace keeps every other character, in order. */
  lemma {:induction false} CollapseKeepsVisible(s: string, i: nat)
    requires i <= |s|
    ensures Visible(Collapse(s, i)) == Visible(s[i..])
    decreases |s| - i
  {
    if i < |s| {
      VisibleFrom(s, i);
      if IsSpace(s[i]) {
        var e := Counter.SkipSpaces(s, i);
        assert Counter.SpaceAt(s, i);
        var rest := Collapse(s, e);
        CollapseKeepsVisible(s, e);
        VisibleFrom([' '] + rest, 0);
        assert ([' '] + rest)[1..] == rest;
        forall k | i <= k < e ensures IsSpace(s[k]) {
          assert Counter.SpaceAt(s, k);
        }
        VisibleSkipsSpaces(s, i, e);
      } else {
        var rest := Collapse(s, i + 1);
        CollapseKeepsVisible(s, i + 1);
        VisibleFrom([s[i]] + rest, 0);
        assert ([s[i]] + rest)[1..] == rest;
      }
    }
  }

  /** Text already tidy has nothing to collapse. */
  lemma {:induction false} CollapseTidy(s: string, i: nat)
    requires i <= |s| && Tidy(s)
    ensures Collapse(s, i) == s[i..]
    decreases |s| - i
  {
    if i < |s| {
      if IsSpace(s[i]) {
        assert i + 1 < |s| ==> !IsSpace(s[i + 1]);
        Counter.SkipSpacesExact(s, i, i + 1);
        CollapseTidy(s, i + 1);
      } else {
        CollapseTidy(s, i + 1);
      }
      assert s[i..] == [s[i]] + s[i + 1..];
    }
  }

  /** Each run of whitespace between two pieces of text becomes exactly one
      space, and the pieces are collapsed on their own. */
  lemma CollapseRun(u: string, w: string, v: string)
    requires w != [] && forall k :: 0 <= k < |w| ==> IsSpace(w[k])
    requires u != [] ==> !IsSpace(u[|u| - 1])
    requires v != [] ==> !IsSpace(v[0])
    ensures Collapse(u + w + v, 0) == Collapse(u, 0) + " " + Collapse(v, 0)
  {
    var t := w + v;
    Regroup(u, w, v);
    CollapseLeadingRun(w, v);
    if u != [] {
      CollapseAppend(u, t, 0);
    } else {
      assert u + t == t;
    }
    Regroup(Collapse(u, 0), " ", Collapse(v, 0));
  }

  /** A leading run of whitespace becomes one space. */
  lemma CollapseLeadingRun(w: string, v: string)
    requires w != [] && forall k :: 0 <= k < |w| ==> IsSpace(w[k])
    requires v != [] ==> !IsSpace(v[0])
    ensures Collapse(w + v, 0) == " " + Collapse(v, 0)
  {
    var t := w + v;
    forall k | 0 <= k < |w| ensures Counter.SpaceAt(t, k) {
      assert t[k] == w[k];
    }
    assert |w| < |t| ==> t[|w|] == v[0];
    Counter.SkipSpacesExact(t, 0, |w|);
    assert Counter.SpaceAt(t, 0);
    CollapseShift(w, v, 0);
  }

  /** After a piece that ends in a visible character, the rest collapses on
      its own. */
  lemma {:induction false} CollapseAppend(u: string, x: string, i: nat)
    requires i <= |u| && u != [] && !IsSpace(u[|u| - 1])
    ensures Collapse(u + x, i) == Collapse(u, i) + Collapse(x, 0)
    decreases |u| - i
  {
    var t := u + x;
    if i == |u| {
      CollapseShift(u, x, 0);
    } else {
      assert t[i] == u[i];
      var n := if IsSpace(u[i]) then Counter.SkipSpaces(u, i) else i + 1;
      if IsSpace(u[i]) {
        SkipSpacesPrefix(u, x, i);
      }
      CollapseStep(t, i);
      CollapseStep(u, i);
      CollapseAppend(u, x, n);
      Regroup([if IsSpace(u[i]) then ' ' else u[i]], Collapse(u, n), Collapse(x, 0));
    }
  }

  /** One step of `Collapse`: a run of whitespace or one visible character. */
  lemma CollapseStep(s: string, i: nat)
    requires i < |s|
    ensures IsSpace(s[i]) ==> Counter.SkipSpaces(s, i) > i
    ensures Collapse(s, i)
            == [if IsSpace(s[i]) then ' ' else s[i]] + Collapse(s, if IsSpace(s[i]) then Counter.SkipSpaces(s, i) else i + 1)
  {
    if IsSpace(s[i]) {
      assert Counter.SpaceAt(s, i);
    }
  }

  /** The step over a run of whitespace. */
  lemma CollapseSpaceStep(s: string, i: nat, n: nat)
    requires i < |s| && IsSpace(s[i]) && n == Counter.SkipSpaces(s, i)
    ensures Collapse(s, i) == [' '] + Collapse(s, n)
  {
    assert Counter.SpaceAt(s, i);
  }

  /** The step over a visible character. */
  lemma CollapseVisibleStep(s: string, i: nat)
    requires i < |s| && !IsSpace(s[i])
    ensures Collapse(s, i) == [s[i]] + Collapse(s, i + 1)
  {
  }

  /** Concatenation regrouped, as a step of its own. */
  lemma Regroup(a: string, b: string, c: string)
    ensures a + (b + c) == a + b + c
  {
  }

  /** A run of whitespace inside a piece that ends in a visible character
      stops inside that piece. */
  lemma SkipSpacesPrefix(u: string, x: string, i: nat)
    requires i < |u| && !IsSpace(u[|u| - 1])
    ensures Counter.SkipSpaces(u, i) < |u|
    ensures Counter.SkipSpaces(u + x, i) == Counter.SkipSpaces(u, i)
  {
    var t := u + x;
    var e := Counter.SkipSpaces(u, i);
    assert e < |u| by {
      assert !Counter.SpaceAt(u, |u| - 1);
    }
    forall k | i <= k < e ensures Counter.SpaceAt(t, k) {
      assert t[k] == u[k] && Counter.SpaceAt(u, k);
    }
    assert t[e] == u[e];
    Counter.SkipSpacesExact(t, i, e);
  }

  /** Collapsing from inside the second half of `u + x` ignores `u`. */
  lemma CollapseShift(u: string, x: string, j: nat)
    requires j <= |x|
    ensures Collapse(u + x, |u| + j) == Collapse(x, j)
  {
    assert (u + x)[|u| + j..] == x[j..];
    CollapseAgree(u + x, |u| + j, x, j);
  }

  /** Texts that agree from the given positions on collapse alike. */
  lemma {:induction false} CollapseAgree(s: string, i: nat, s2: string, i2: nat)
    requires i <= |s| && i2 <= |s2| && s[i..] == s2[i2..]
    ensures Collapse(s, i) == Collapse(s2, i2)
    decreases |s| - i
  {
    if i < |s| {
      assert s[i] == s2[i2] by {
        assert s[i] == s[i..][0] && s2[i2] == s2[i2..][0];
      }
      if IsSpace(s[i]) {
        var e, e2 := Counter.SkipSpaces(s, i), Counter.SkipSpaces(s2, i2);
        SkipSpacesAgree(s, i, s2, i2);
        CollapseSpaceStep(s, i, e);
        CollapseSpaceStep(s2, i2, e2);
        CollapseAgree(s, e, s2, e2);
      } else {
        assert s[i + 1..] == s2[i2 + 1..] by {
          assert s[i + 1..] == s[i..][1..] && s2[i2 + 1..] == s2[i2..][1..];
        }
        CollapseVisibleStep(s, i);
        CollapseVisibleStep(s2, i2);
        CollapseAgree(s, i + 1, s2, i2 + 1);
      }
    }
  }

  /** Whitespace runs in agreeing texts have the same length, and the texts
      still agree after them. */
  lemma SkipSpacesAgree(s: string, i: nat, s2: string, i2: nat)
    requires i <= |s| && i2 <= |s2| && s[i..] == s2[i2..]
    ensures Counter.SkipSpaces(s2, i2) - i2 == Counter.SkipSpaces(s, i) - i
    ensures s[Counter.SkipSpaces(s, i)..] == s2[Counter.SkipSpaces(s2, i2)..]
  {
    var e := Counter.SkipSpaces(s, i);
    forall k | i2 <= k < i2 + (e - i) ensures Counter.SpaceAt(s2, k) {
      assert s2[k] == s2[i2..][k - i2] == s[i..][k - i2] == s[k - i2 + i];
      assert Counter.SpaceAt(s, k - i2 + i);
    }
    if e < |s| {
      assert s2[i2 + (e - i)] == s2[i2..][e - i] == s[i..][e - i] == s[e];
    }
    Counter.SkipSpacesExact(s2, i2, i2 + (e - i));
    assert s[e..] == s[i..][e - i..] && s2[i2 + (e - i)..] == s2[i2..][e - i..];
  }

  /** `cleanTaskText(text)`: a text with no whitespace at either end, no
      symbol of the task plugin and no whitespace but single spaces, never
      longer than the original. */
  function CleanTaskText(text: string): (r: string)
    ensures |r| <= |text|
    ensures Tidy(r)
    ensures r != [] ==> !IsSpace(r[0]) && !IsSpace(r[|r| - 1])
  {
    if text == [] then []
    else
      var c := CutAtSymbol(StripFields(StripTags(StripLabels(text, 0), 0), 0));
      var w := Collapse(c, 0);
      CollapseNoSymbols(c, 0);
      assert Tidy(w);
      TrimTidy(w);
      Trim(w)
  }

  /** Single spaces between words and no task-plugin symbol: what step 5
      leaves. */
  predicate Tidy(w: string) {
    && (forall k :: 0 <= k < |w| ==> w[k] !in TaskSymbols)
    && (forall k :: 0 <= k < |w| && IsSpace(w[k]) ==> w[k] == ' ')
    && (forall k :: 0 <= k < |w| - 1 ==> !(w[k] == ' ' && w[k + 1] == ' '))
  }

  /** Trimming keeps a tidy text tidy. */
  lemma TrimTidy(w: string)
    requires Tidy(w)
    ensures Tidy(Trim(w))
  {
    var a, b := LeadingSpaces(w), TrailingStart(w);
    var r := Trim(w);
    if a < b {
      assert r == w[a..b];
      assert forall k :: 0 <= k < |r| ==> r[k] == w[a + k];
    }
  }

  /** Two plain words joined by any run of whitespace come out of the
      cleaning joined by exactly one space. */
  lemma CleanTaskTextSeparatesWords(u: string, w: string, v: string)
    requires u != [] && Tidy(u) && !IsSpace(u[0]) && !IsSpace(u[|u| - 1])
    requires v != [] && Tidy(v) && !IsSpace(v[0]) && !IsSpace(v[|v| - 1])
    requires w != [] && forall k :: 0 <= k < |w| ==> IsSpace(w[k])
    requires forall j :: 0 <= j < |u + w + v| ==> Counter.AnnotationAt(u + w + v, j).None?
    requires forall j :: 0 <= j < |u + w + v| ==> !TagAt(u + w + v, j)
    requires forall j :: 0 <= j < |u + w + v| ==> FieldAt(u + w + v, j).None?
    ensures CleanTaskText(u + w + v) == u + " " + v
  {
    var text := u + w + v;
    StripLabelsKeepsPlain(text, 0);
    StripTagsKeepsPlain(text, 0);
    StripFieldsKeepsPlain(text, 0);
    assert text[0..] == text;
    JoinedWithoutSymbols(u, w, v);
    CollapseWords(u, w, v);
  }

  /** Tidy words joined by whitespace hold no task-plugin symbol. */
  lemma JoinedWithoutSymbols(u: string, w: string, v: string)
    requires Tidy(u) && Tidy(v)
    requires forall k :: 0 <= k < |w| ==> IsSpace(w[k])
    ensures CutAtSymbol(u + w + v) == u + w + v
  {
    var text := u + w + v;
    forall k | 0 <= k < |text| ensures text[k] !in TaskSymbols {
      if k < |u| {
        assert text[k] == u[k];
      } else if k < |u| + |w| {
        assert text[k] == w[k - |u|];
        SpaceIsNoSymbol(w[k - |u|]);
      } else {
        assert text[k] == v[k - |u| - |w|];
      }
    }
  }

  /** No task-plugin symbol is whitespace. */
  lemma SpaceIsNoSymbol(c: char)
    requires IsSpace(c)
    ensures c !in TaskSymbols
  {
  }

  /** Collapsing and trimming two tidy words joined by whitespace leaves them
      joined by one space. */
  lemma CollapseWords(u: string, w: string, v: string)
    requires u != [] && Tidy(u) && !IsSpace(u[0]) && !IsSpace(u[|u| - 1])
    requires v != [] && Tidy(v) && !IsSpace(v[0]) && !IsSpace(v[|v| - 1])
    requires w != [] && forall k :: 0 <= k < |w| ==> IsSpace(w[k])
    ensures Trim(Collapse(u + w + v, 0)) == u + " " + v
  {
    CollapseRun(u, w, v);
    CollapseTidy(u, 0);
    CollapseTidy(v, 0);
    assert u[0..] == u && v[0..] == v;
    var r := u + " " + v;
    assert r[0] == u[0] && r[|r| - 1] == v[|v| - 1];
    TrimOfTrimmed(r);
  }

  /** A tidy, trimmed text with no counter label, tag or inline field comes
      out of the cleaning as it went in. */
  lemma CleanTaskTextKeepsPlain(text: string)
    requires forall j :: 0 <= j < |text| ==> Counter.AnnotationAt(text, j).None?
    requires forall j :: 0 <= j < |text| ==> !TagAt(text, j)
    requires forall j :: 0 <= j < |text| ==> FieldAt(text, j).None?
    requires Tidy(text) && (text != [] ==> !IsSpace(text[0]) && !IsSpace(text[|text| - 1]))
    ensures CleanTaskText(text) == text
  {
    if text != [] {
      StripLabelsKeepsPlain(text, 0);
      StripTagsKeepsPlain(text, 0);
      StripFieldsKeepsPlain(text, 0);
      assert text[0..] == text;
      assert CutAtSymbol(text) == text;
      CollapseTidy(text, 0);
      TrimOfTrimmed(text);
    }
  }
}

=== FILE: counter.dfy ===
/** The completion counter that `logCompletion` keeps inside a task line:
    `[<marker>:: N]` or `[<marker>:: N/M]`, where N counts finished work
    intervals and M is an optional goal.  The module reads the counter the way
    the source's regular expression does, writes the incremented label back at
    the same place, ticks a leading checkbox when the goal is reached, and
    applies all of it to one line of a document after the drift check. */
module Counter {
  import opened Text

  /** The tomato emoji as the source text spells it: four characters. */
  const Marker: string := "\U{F8FF}\U{FC}\U{E7}\U{D6}"

  /** Every counter label starts with `[`, the marker and `::`. */
  const Opening: string := "[" + Marker + "::"

  /** The characters that can stand inside a counter label after its `[`. */
  predicate LabelChar(c: char) {
    c in Marker || c == ':' || c == '/' || c == ']' || IsSpace(c) || IsDigit(c)
  }

  /** `s[k]` is matched by `\s`. */
  predicate SpaceAt(s: string, k: nat)
    requires k < |s|
  {
    IsSpace(s[k])
  }

  /** `s[k]` is matched by `\d`. */
  predicate DigitAt(s: string, k: nat)
    requires k < |s|
  {
    IsDigit(s[k])
  }

  /** `\s*` from index `i`: the end of the whitespace run starting there. */
  function SkipSpaces(s: string, i: nat): (r: nat)
    requires i <= |s|
    decreases |s| - i
    ensures i <= r <= |s|
    ensures forall k :: i <= k < r ==> SpaceAt(s, k)
    ensures r < |s| ==> !SpaceAt(s, r)
  {
    if i < |s| && SpaceAt(s, i) then SkipSpaces(s, i + 1) else i
  }

  /** `\d*` from index `i`: the end of the digit run starting there. */
  function SkipDigits(s: string, i: nat): (r: nat)
    requires i <= |s|
    decreases |s| - i
    ensures i <= r <= |s|
    ensures forall k :: i <= k < r ==> DigitAt(s, k)
    ensures r < |s| ==> !DigitAt(s, r)
  {
    if i < |s| && DigitAt(s, i) then SkipDigits(s, i + 1) else i
  }

  /** A counter label as the regular expression captures it: its length, the
      count digits (group 1) and the goal digits (group 2) when present. */
  datatype Annotation = Annotation(len: nat, count: string, goal: Option<string>)

  predicate WellFormed(a: Annotation) {
    a.count != [] && AllDigits(a.count) && (a.goal.Some? ==> a.goal.value != [] && AllDigits(a.goal.value))
  }

  /** The bounds of the goal digits inside a line. */
  datatype Span = Span(lo: nat, hi: nat)

  /** The group `(?:\s*\/\s*(\d+))` followed by `\]`, tried at index `i` just
      after the count digits: the bounds of the goal digits when it matches. */
  function GoalAt(u: string, i: nat): (r: Option<Span>)
    requires i <= |u|
    ensures r.Some? ==> i < r.value.lo < r.value.hi < |u| && u[r.value.hi] == ']'
    ensures r.Some? ==> forall k :: r.value.lo <= k < r.value.hi ==> DigitAt(u, k)
    ensures r.Some? ==> forall k :: i <= k < r.value.lo ==> SpaceAt(u, k) || u[k] == '/'
  {
    var g := SkipSpaces(u, i);
    if g < |u| && u[g] == '/' then
      var g0 := SkipSpaces(u, g + 1);
      var g1 := SkipDigits(u, g0);
      if g0 < g1 && g1 < |u| && u[g1] == ']' then Some(Span(g0, g1)) else None
    else
      None
  }

  lemma DigitSlice(u: string, i: nat, j: nat)
    requires i <= j <= |u| && forall k :: i <= k < j ==> DigitAt(u, k)
    ensures AllDigits(u[i..j])
  {
    forall k | 0 <= k < j - i ensures IsDigit(u[i..j][k]) {
      assert DigitAt(u, i + k) && u[i..j][k] == u[i + k];
    }
  }

  /** The pattern `\[<marker>::\s*(\d+)(?:\s*\/\s*(\d+))?\]` matched at the
      start of `u`.  The optional goal group is tried first, as the regular
      expression's greedy `?` does, and the plain `]` after it. */
  function ParseAnnotation(u: string): (r: Option<Annotation>)
    ensures r.Some? ==> WellFormed(r.value) && |Opening| < r.value.len <= |u|
    ensures r.Some? ==> At(u, Opening, 0) && u[r.value.len - 1] == ']'
  {
    if !At(u, Opening, 0) then None
    else
      var c0 := SkipSpaces(u, |Opening|);
      var c1 := SkipDigits(u, c0);
      if c1 == c0 then None
      else
        DigitSlice(u, c0, c1);
        match GoalAt(u, c1)
        case Some(Span(g0, g1)) =>
          DigitSlice(u, g0, g1);
          Some(Annotation(g1 + 1, u[c0..c1], Some(u[g0..g1])))
        case None =>
          if c1 < |u| && u[c1] == ']' then Some(Annotation(c1 + 1, u[c0..c1], None)) else None
  }

  /** Inside a label, after its `[`, there are only label characters. */
  lemma LabelChars(u: string)
    requires ParseAnnotation(u).Some?
    ensures forall k :: 0 < k < ParseAnnotation(u).value.len ==> LabelChar(u[k])
  {
    var n := ParseAnnotation(u).value.len;
    var o := |Opening|;
    assert u[..o] == Opening;
    forall k | 0 < k < o ensures LabelChar(u[k]) {
      assert u[k] == Opening[k];
    }
    var c0 := SkipSpaces(u, o);
    var c1 := SkipDigits(u, c0);
    forall k | o <= k < n ensures LabelChar(u[k]) {
      if k < c0 {
        assert SpaceAt(u, k);
      } else if k < c1 {
        assert DigitAt(u, k);
      } else if GoalAt(u, c1).Some? {
        var g0, g1 := GoalAt(u, c1).value.lo, GoalAt(u, c1).value.hi;
        if k < g0 {
          assert SpaceAt(u, k) || u[k] == '/';
        } else if k < g1 {
          assert DigitAt(u, k);
        }
      }
    }
  }

  /** The counter pattern matched at index `p` of `s`. */
  function AnnotationAt(s: string, p: nat): Option<Annotation>
    requires p <= |s|
  {
    ParseAnnotation(s[p..])
  }

  /** Where the first (leftmost) counter label of a line starts, and what it holds. */
  datatype Found = Found(start: nat, ann: Annotation)

  function FindAnnotationFrom(s: string, i: nat): (r: Option<Found>)
    requires i <= |s|
    decreases |s| - i
    ensures r.Some? ==> i <= r.value.start <= |s| && AnnotationAt(s, r.value.start) == Some(r.value.ann)
    ensures r.Some? ==> r.value.start + r.value.ann.len <= |s|
    ensures forall q {:trigger AnnotationAt(s, q)} ::
              i <= q <= |s| && (r.None? || q < r.value.start) ==> AnnotationAt(s, q).None?
  {
    match AnnotationAt(s, i)
    case Some(a) => Some(Found(i, a))
    case None => if i == |s| then None else FindAnnotationFrom(s, i + 1)
  }

  /** `line.match(tomatoRegex)`: the leftmost counter label of the line. */
  function FindAnnotation(s: string): Option<Found> {
    FindAnnotationFrom(s, 0)
  }

  /** The number the count group holds (`parseInt(match[1])`). */
  function CountOf(a: Annotation): nat
    requires WellFormed(a)
  {
    DigitsValue(a.count)
  }

  /** The text that follows the count in a label: `/M` when there is a goal. */
  function GoalSuffix(goal: Option<string>): string {
    if goal.Some? then "/" + goal.value else ""
  }

  /** The label the logger writes: `[<marker>:: <count>]` or `[<marker>:: <count>/<goal>]`. */
  function Label(count: nat, goal: Option<string>): string {
    LabelText(NatToString(count), goal)
  }

  /** A label holding the count digits `digits`. */
  function LabelText(digits: string, goal: Option<string>): string {
    Opening + " " + digits + GoalSuffix(goal) + "]"
  }

  /** `s[k]` may stand before a list item's checkbox: whitespace or a bullet. */
  predicate LeadAt(s: string, k: nat)
    requires k < |s|
  {
    SpaceAt(s, k) || s[k] in "-*+"
  }

  /** `^(\s*[-*+]\s*)\[ \]`: an open checkbox at the head of a list item; the
      index of its `[`. */
  function CheckboxAt(s: string): (r: Option<nat>)
    ensures r.Some? ==> At(s, "[ ]", r.value)
    ensures r.Some? ==> forall k :: 0 <= k < r.value ==> LeadAt(s, k)
  {
    var a := SkipSpaces(s, 0);
    if a < |s| && s[a] in "-*+" then
      var b := SkipSpaces(s, a + 1);
      if At(s, "[ ]", b) then Some(b) else None
    else
      None
  }

  /** `^(\s*[-*+]\s*)\[ \]` matches `s` with its one bullet at `a` and the
      `[` of the box at `b`. */
  predicate BoxShape(s: string, a: nat, b: nat) {
    && a < b && At(s, "[ ]", b)
    && (forall k :: 0 <= k < a ==> SpaceAt(s, k))
    && s[a] in "-*+"
    && (forall k :: a < k < b ==> SpaceAt(s, k))
  }

  /** The leading checkbox is found exactly when the pattern matches, and it
      is the box of the match. */
  lemma CheckboxAtIff(s: string)
    ensures CheckboxAt(s).Some? ==> exists a :: BoxShape(s, a, CheckboxAt(s).value)
    ensures forall a: nat, b: nat :: BoxShape(s, a, b) ==> CheckboxAt(s) == Some(b)
  {
    if CheckboxAt(s).Some? {
      assert BoxShape(s, SkipSpaces(s, 0), CheckboxAt(s).value);
    }
    forall a: nat, b: nat | BoxShape(s, a, b) ensures CheckboxAt(s) == Some(b) {
      BoxFromShape(s, a, b);
    }
  }

  lemma BoxFromShape(s: string, a: nat, b: nat)
    requires BoxShape(s, a, b)
    ensures CheckboxAt(s) == Some(b)
  {
    assert !SpaceAt(s, a);
    SkipSpacesExact(s, 0, a);
    assert s[b] == s[b..b + 3][0] == '[';
    SkipSpacesExact(s, a + 1, b);
  }

  /** `s.replace(checkboxRegex, '$1[x]')`: ticks the leading checkbox and
      nothing else. */
  function CheckTask(s: string): (r: string)
    ensures |r| == |s|
    ensures CheckboxAt(s).None? ==> r == s
    ensures CheckboxAt(s).Some? ==> r == s[CheckboxAt(s).value + 1 := 'x']
  {
    match CheckboxAt(s)
    case Some(b) =>
      var r := s[..b] + "[x]" + s[b + 3..];
      assert r == s[b + 1 := 'x'] by {
        assert s[b..b + 3] == "[ ]";
        assert s[b] == '[' && s[b + 2] == ']' by { assert s[b] == s[b..b + 3][0] && s[b + 2] == s[b..b + 3][2]; }
        assert forall k :: 0 <= k < |s| ==> r[k] == s[b + 1 := 'x'][k];
      }
      r
    case None => s
  }

  /** The label written when a line has none yet: ` [<marker>:: 1]`. */
  const FirstLabel: string := " [" + Marker + ":: 1]"

  /** The counter step of `logCompletion` applied to one line: increment an
      existing label in place, keeping its goal, and tick the leading checkbox
      once the goal is reached; or append a first label. */
  function UpdateLine(line: string): string {
    match FindAnnotation(line)
    case None => line + FirstLabel
    case Some(f) =>
      assert AnnotationAt(line, f.start) == Some(f.ann);
      Bump(line, f)
  }

  /** The label `f` found in `line` rewritten with the next count, by
      `line.replace(match[0], newLabel)`, and the checkbox ticked when the goal
      is reached. */
  function Bump(line: string, f: Found): string
    requires f.start + f.ann.len <= |line| && WellFormed(f.ann)
  {
    var newLine := ReplaceFirst(line, line[f.start..f.start + f.ann.len], NextLabel(f.ann));
    if GoalReached(f.ann) then CheckTask(newLine) else newLine
  }

  /** The label written for a found label: the count plus one and the same goal. */
  function NextLabel(a: Annotation): string
    requires WellFormed(a)
  {
    Label(CountOf(a) + 1, a.goal)
  }

  /** The incremented count meets the label's goal (`newCount >= goal`). */
  predicate GoalReached(a: Annotation)
    requires WellFormed(a)
  {
    a.goal.Some? && CountOf(a) + 1 >= DigitsValue(a.goal.value)
  }

  /** The drift check of `logCompletion`: the stored line still exists and
      contains the first five UTF-16 code units of the task's snapshot text. */
  predicate OnTaskLine(lines: seq<string>, taskLine: nat, taskText: string) {
    taskLine < |lines| && Includes(lines[taskLine], Prefix(taskText, 5))
  }

  /** A task text starting with an emoji passes the drift check on a line
      holding only its first four characters, since the emoji counts as two
      of the five code units. */
  lemma DriftCheckCountsCodeUnits()
    ensures OnTaskLine(["- [ ] \U{1F525} Fi-x"], 0, "\U{1F525} Fix bug")
  {
    var line := "- [ ] \U{1F525} Fi-x";
    PrefixCountsCodeUnits();
    assert At(line, "\U{1F525} Fi", 6) by {
      assert line[6] == '\U{1F525}' && line[7] == ' ' && line[8] == 'F' && line[9] == 'i';
      assert line[6..10] == "\U{1F525} Fi";
    }
    IncludesWhole(line, "\U{1F525} Fi", 6);
  }

  /** A key cut on a character boundary is found wherever its text occurs. */
  lemma IncludesWhole(line: string, p: string, j: nat)
    requires At(line, p, j)
    ensures Includes(line, Cut(p, None))
  {
    ContainsIff(line, p);
  }

  /** `logCompletion` on the document's lines: the task line goes through
      UpdateLine when it passes the drift check; otherwise the document is
      left as it was.  No other line changes. */
  function LogLines(lines: seq<string>, taskLine: nat, taskText: string): (r: seq<string>)
    ensures |r| == |lines|
    ensures forall i :: 0 <= i < |lines| && i != taskLine ==> r[i] == lines[i]
    ensures !OnTaskLine(lines, taskLine, taskText) ==> r == lines
    ensures OnTaskLine(lines, taskLine, taskText) ==> r[taskLine] == UpdateLine(lines[taskLine])
  {
    if OnTaskLine(lines, taskLine, taskText) then lines[taskLine := UpdateLine(lines[taskLine])] else lines
  }

  /** The same update done as the source does it: `lines[lineIdx] = newLine`
      on the array of lines.  Reports whether the line was rewritten. */
  method LogInPlace(lines: array<string>, lineIdx: nat, taskText: string) returns (logged: bool)
    modifies lines
    ensures logged == OnTaskLine(old(lines[..]), lineIdx, taskText)
    ensures lines[..] == LogLines(old(lines[..]), lineIdx, taskText)
  {
    logged := false;
    if lineIdx < lines.Length {
      var line := lines[lineIdx];
      if Includes(line, Prefix(taskText, 5)) {
        lines[lineIdx] := UpdateLine(line);
        logged := true;
      }
    }
  }

  // ---------------------------------------------------------------------------
  // The skips are fixed by the characters they pass over.

  lemma {:induction false} SkipSpacesExact(s: string, i: nat, r: nat)
    requires i <= r <= |s|
    requires forall k :: i <= k < r ==> SpaceAt(s, k)
    requires r < |s| ==> !SpaceAt(s, r)
    ensures SkipSpaces(s, i) == r
    decreases r - i
  {
    if i < r {
      SkipSpacesExact(s, i + 1, r);
    }
  }

  lemma {:induction false} SkipDigitsExact(s: string, i: nat, r: nat)
    requires i <= r <= |s|
    requires forall k :: i <= k < r ==> DigitAt(s, k)
    requires r < |s| ==> !DigitAt(s, r)
    ensures SkipDigits(s, i) == r
    decreases r - i
  {
    if i < r {
      SkipDigitsExact(s, i + 1, r);
    }
  }

  lemma SkipSpacesLocal(u: string, v: string, i: nat, n: nat)
    requires i <= n <= |u| && n <= |v| && u[..n] == v[..n]
    requires SkipSpaces(u, i) < n
    ensures SkipSpaces(v, i) == SkipSpaces(u, i)
  {
    var r := SkipSpaces(u, i);
    forall k | i <= k <= r ensures SpaceAt(v, k) == SpaceAt(u, k) {
      assert u[..n][k] == v[..n][k];
    }
    SkipSpacesExact(v, i, r);
  }

  lemma SkipDigitsLocal(u: string, v: string, i: nat, n: nat)
    requires i <= n <= |u| && n <= |v| && u[..n] == v[..n]
    requires SkipDigits(u, i) < n
    ensures SkipDigits(v, i) == SkipDigits(u, i)
  {
    var r := SkipDigits(u, i);
    forall k | i <= k <= r ensures DigitAt(v, k) == DigitAt(u, k) {
      assert u[..n][k] == v[..n][k];
    }
    SkipDigitsExact(v, i, r);
  }

  // ---------------------------------------------------------------------------
  // Reading a label depends only on the characters it covers.

  lemma GoalAtLocal(u: string, v: string, i: nat, n: nat)
    requires i <= n <= |u| && n <= |v| && u[..n] == v[..n]
    requires GoalAt(u, i).Some? && GoalAt(u, i).value.hi < n
    ensures GoalAt(v, i) == GoalAt(u, i)
  {
    var g := SkipSpaces(u, i);
    assert g < |u| && u[g] == '/';
    SkipSpacesLocal(u, v, i, n);
    assert v[g] == u[g] by { assert u[..n][g] == v[..n][g]; }
    var g0 := SkipSpaces(u, g + 1);
    SkipSpacesLocal(u, v, g + 1, n);
    var g1 := SkipDigits(u, g0);
    SkipDigitsLocal(u, v, g0, n);
    assert v[g1] == u[g1] by { assert u[..n][g1] == v[..n][g1]; }
  }

  /** A `]` right after the count leaves no room for a goal. */
  lemma GoalAtClosed(u: string, i: nat)
    requires i < |u| && u[i] == ']'
    ensures GoalAt(u, i).None?
  {
    SkipSpacesExact(u, i, i);
  }

  /** The goal group and its `]` as the regular expression sees them from
      index `i`: `\s*` up to the slash at `sl`, `\s*` up to the digits
      `u[g0..g1]`, and `]` at `g1`. */
  predicate GoalShape(u: string, i: nat, sl: nat, g0: nat, g1: nat) {
    && i <= sl < g0 < g1 < |u|
    && (forall k :: i <= k < sl ==> SpaceAt(u, k))
    && u[sl] == '/'
    && (forall k :: sl < k < g0 ==> SpaceAt(u, k))
    && (forall k :: g0 <= k < g1 ==> DigitAt(u, k))
    && u[g1] == ']'
  }

  /** The goal group matches exactly where its shape stands, blanks around
      the slash included, and the digits found are the ones of the match. */
  lemma GoalAtIff(u: string, i: nat)
    requires i <= |u|
    ensures GoalAt(u, i).Some? ==> exists sl :: GoalShape(u, i, sl, GoalAt(u, i).value.lo, GoalAt(u, i).value.hi)
    ensures forall sl: nat, g0: nat, g1: nat :: GoalShape(u, i, sl, g0, g1) ==> GoalAt(u, i) == Some(Span(g0, g1))
  {
    if GoalAt(u, i).Some? {
      assert GoalShape(u, i, SkipSpaces(u, i), GoalAt(u, i).value.lo, GoalAt(u, i).value.hi);
    }
    forall sl: nat, g0: nat, g1: nat | GoalShape(u, i, sl, g0, g1) ensures GoalAt(u, i) == Some(Span(g0, g1)) {
      GoalFromShape(u, i, sl, g0, g1);
    }
  }

  lemma GoalFromShape(u: string, i: nat, sl: nat, g0: nat, g1: nat)
    requires GoalShape(u, i, sl, g0, g1)
    ensures GoalAt(u, i) == Some(Span(g0, g1))
  {
    assert !SpaceAt(u, sl);
    SkipSpacesExact(u, i, sl);
    assert DigitAt(u, g0);
    SkipSpacesExact(u, sl + 1, g0);
    assert !DigitAt(u, g1);
    SkipDigitsExact(u, g0, g1);
  }

  /** A label whose goal has blanks around its slash, such as `[<m>:: 3 / 5]`,
      is read with that goal. */
  lemma ParseSpacedGoal(u: string, c0: nat, c1: nat, sl: nat, g0: nat, g1: nat)
    requires At(u, Opening, 0)
    requires |Opening| <= c0 < c1
    requires GoalShape(u, c1, sl, g0, g1)
    requires forall k :: |Opening| <= k < c0 ==> SpaceAt(u, k)
    requires forall k :: c0 <= k < c1 ==> DigitAt(u, k)
    ensures ParseAnnotation(u) == Some(Annotation(g1 + 1, u[c0..c1], Some(u[g0..g1])))
  {
    assert DigitAt(u, c0);
    assert !SpaceAt(u, c0);
    SkipSpacesExact(u, |Opening|, c0);
    assert !DigitAt(u, c1) by {
      if c1 < sl { assert SpaceAt(u, c1); }
    }
    SkipDigitsExact(u, c0, c1);
    GoalFromShape(u, c1, sl, g0, g1);
  }

  /** Two strings that agree on the characters a label covers read the same label. */
  lemma ParseAnnotationLocal(u: string, v: string)
    requires ParseAnnotation(u).Some?
    requires ParseAnnotation(u).value.len <= |v|
    requires u[..ParseAnnotation(u).value.len] == v[..ParseAnnotation(u).value.len]
    ensures ParseAnnotation(v) == ParseAnnotation(u)
  {
    var n := ParseAnnotation(u).value.len;
    var c0 := SkipSpaces(u, |Opening|);
    var c1 := SkipDigits(u, c0);
    assert c0 < c1 < n;
    SliceAgree(u, v, n, 0, |Opening|);
    SkipSpacesLocal(u, v, |Opening|, n);
    SkipDigitsLocal(u, v, c0, n);
    SliceAgree(u, v, n, c0, c1);
    var digits := u[c0..c1];
    if GoalAt(u, c1).Some? {
      var g := GoalAt(u, c1).value;
      GoalAtLocal(u, v, c1, n);
      SliceAgree(u, v, n, g.lo, g.hi);
      var gs := u[g.lo..g.hi];
      ParseWithGoal(u, c0, c1, digits, g, gs, n);
      ParseWithGoal(v, c0, c1, digits, g, gs, n);
    } else {
      SliceAgree(u, v, n, c1, c1 + 1);
      assert v[c1] == v[c1..c1 + 1][0];
      GoalAtClosed(v, c1);
      ParsePlain(u, c0, c1, digits);
      ParsePlain(v, c0, c1, digits);
    }
  }

  lemma SliceAgree(u: string, v: string, n: nat, i: nat, j: nat)
    requires i <= j <= n <= |u| && n <= |v| && u[..n] == v[..n]
    ensures v[i..j] == u[i..j]
  {
    forall k | i <= k < j
      ensures v[k] == u[k]
    {
      assert v[k] == v[..n][k] && u[k] == u[..n][k];
    }
  }

  /** A label read at `q` ends before any character that cannot occur inside a label. */
  lemma AnnotationEndsBefore(s: string, q: nat, p: nat)
    requires q < p < |s| && !LabelChar(s[p])
    requires AnnotationAt(s, q).Some?
    ensures q + AnnotationAt(s, q).value.len <= p
  {
    LabelChars(s[q..]);
    assert s[q..][p - q] == s[p];
  }

  /** A label read at `q` in `t` is read at `q` in `s` too when the two agree on it. */
  lemma AnnotationTransfer(t: string, s: string, q: nat)
    requires q <= |t| && q <= |s|
    requires AnnotationAt(t, q).Some?
    requires q + AnnotationAt(t, q).value.len <= |s|
    requires t[q..q + AnnotationAt(t, q).value.len] == s[q..q + AnnotationAt(t, q).value.len]
    ensures AnnotationAt(s, q) == AnnotationAt(t, q)
  {
    var n := AnnotationAt(t, q).value.len;
    assert t[q..][..n] == t[q..q + n];
    assert s[q..][..n] == s[q..q + n];
    ParseAnnotationLocal(t[q..], s[q..]);
  }

  /** Before a character that cannot stand inside a label, `t` shows a label
      only where `s`, which agrees with it up to there, shows the same one. */
  lemma LabelBeforeStop(t: string, s: string, q: nat, p: nat)
    requires q < p < |t| && p <= |s| && t[..p] == s[..p] && !LabelChar(t[p])
    ensures AnnotationAt(t, q).Some? ==> AnnotationAt(s, q) == AnnotationAt(t, q)
  {
    if AnnotationAt(t, q).Some? {
      AnnotationEndsBefore(t, q, p);
      var e := q + AnnotationAt(t, q).value.len;
      assert t[q..e] == t[..p][q..e] == s[..p][q..e] == s[q..e];
      AnnotationTransfer(t, s, q);
    }
  }

  /** The same text at two places of a line reads as the same label. */
  lemma SameTextSameLabel(s: string, p: nat, j: nat, a: Annotation)
    requires p <= |s| && AnnotationAt(s, p) == Some(a) && p + a.len <= |s|
    requires At(s, s[p..p + a.len], j)
    ensures AnnotationAt(s, j) == Some(a)
  {
    var u, v := s[p..], s[j..];
    assert u[..a.len] == s[p..p + a.len];
    assert v[..a.len] == s[j..j + a.len];
    ParseAnnotationLocal(u, v);
  }

  /** No label starts before the leftmost one. */
  lemma Leftmost(s: string, f: Found, q: nat)
    requires FindAnnotation(s) == Some(f) && q <= |s|
    ensures AnnotationAt(s, q).Some? ==> f.start <= q
  {
  }

  /** The first occurrence of a matched label's text is the match itself, so
      `line.replace(match[0], newLabel)` rewrites the label where it was found. */
  lemma FirstOccurrenceIsMatch(line: string, f: Found)
    requires FindAnnotation(line) == Some(f)
    ensures IndexOf(line, line[f.start..f.start + f.ann.len]) == Some(f.start)
  {
    var m := line[f.start..f.start + f.ann.len];
    var q := FirstAtMost(line, m, f.start);
    NoCopyBefore(line, f, q);
  }

  /** No copy of the leftmost label's text starts before it: a copy would be a
      label of its own. */
  lemma NoCopyBefore(line: string, f: Found, q: nat)
    requires FindAnnotation(line) == Some(f) && q <= f.start
    requires At(line, line[f.start..f.start + f.ann.len], q)
    ensures q == f.start
  {
    SameTextSameLabel(line, f.start, q, f.ann);
    Leftmost(line, f, q);
  }

  /** An occurrence at `p` puts the first occurrence at or before `p`. */
  lemma FirstAtMost(s: string, m: string, p: nat) returns (q: nat)
    requires At(s, m, p)
    ensures IndexOf(s, m) == Some(q) && q <= p && At(s, m, q)
  {
    q := IndexOf(s, m).value;
  }

  // ---------------------------------------------------------------------------
  // Reading back a label the logger wrote.

  lemma SkipDigitsOver(s: string, i: nat, d: string)
    requires i + |d| < |s| && s[i..i + |d|] == d && AllDigits(d) && !IsDigit(s[i + |d|])
    ensures SkipDigits(s, i) == i + |d|
  {
    forall k | i <= k < i + |d| ensures DigitAt(s, k) {
      assert s[k] == s[i..i + |d|][k - i];
    }
    SkipDigitsExact(s, i, i + |d|);
  }

  /** A goal group `/M]` written at `i` is read back with its digits. */
  lemma GoalAtWritten(u: string, i: nat, gs: string)
    requires gs != [] && AllDigits(gs)
    requires i + |gs| + 1 < |u| && u[i] == '/' && u[i + 1..i + 1 + |gs|] == gs && u[i + 1 + |gs|] == ']'
    ensures GoalAt(u, i) == Some(Span(i + 1, i + 1 + |gs|))
  {
    SkipSpacesExact(u, i, i);
    assert u[i + 1] == gs[0] by { assert u[i + 1] == u[i + 1..i + 1 + |gs|][0]; }
    SkipSpacesExact(u, i + 1, i + 1);
    SkipDigitsOver(u, i + 1, gs);
  }

  /** Where the count of a written label starts and ends. */
  lemma LabelCount(u: string, digits: string, tail: string)
    requires digits != [] && AllDigits(digits) && tail != [] && !IsDigit(tail[0])
    requires u == Opening + " " + digits + tail
    ensures At(u, Opening, 0) && SkipSpaces(u, |Opening|) == |Opening| + 1
    ensures SkipDigits(u, |Opening| + 1) == |Opening| + 1 + |digits|
    ensures u[|Opening| + 1..|Opening| + 1 + |digits|] == digits
    ensures u[|Opening| + 1 + |digits|..] == tail
  {
    var o := |Opening|;
    var c0, c1 := o + 1, o + 1 + |digits|;
    assert u[..o] == Opening;
    assert u[o] == ' ';
    assert u[c0..c1] == digits;
    assert u[c1..] == tail;
    assert u[c0] == digits[0];
    assert u[c1] == tail[0];
    SkipSpacesExact(u, o, c0);
    SkipDigitsOver(u, c0, digits);
  }

  /** A goal suffix `/<gs>` and `]` after the count of a written label read as that goal. */
  lemma WrittenGoal(u: string, c1: nat, gs: string, rest: string)
    requires gs != [] && AllDigits(gs)
    requires c1 <= |u| && u[c1..] == "/" + gs + "]" + rest
    ensures GoalAt(u, c1) == Some(Span(c1 + 1, c1 + 1 + |gs|))
    ensures u[c1 + 1..c1 + 1 + |gs|] == gs
  {
    var tail, x := u[c1..], "]" + rest;
    assert tail == ['/'] + (gs + x);
    assert u[c1] == tail[0] == '/';
    assert tail[1..] == gs + x;
    assert (gs + x)[..|gs|] == gs && (gs + x)[|gs|] == x[0] == ']';
    assert u[c1 + 1..c1 + 1 + |gs|] == tail[1..][..|gs|];
    assert u[c1 + 1 + |gs|] == tail[1..][|gs|];
    GoalAtWritten(u, c1, gs);
  }

  /** A plain `]` after the count of a written label closes it without a goal. */
  lemma WrittenClose(u: string, c1: nat, rest: string)
    requires c1 <= |u| && u[c1..] == "]" + rest
    ensures c1 < |u| && u[c1] == ']' && GoalAt(u, c1).None?
  {
    assert u[c1] == u[c1..][0];
    GoalAtClosed(u, c1);
  }

  lemma ParsePlain(u: string, c0: nat, c1: nat, digits: string)
    requires c0 < c1 < |u| && u[c0..c1] == digits
    requires At(u, Opening, 0) && SkipSpaces(u, |Opening|) == c0 && SkipDigits(u, c0) == c1
    requires u[c1] == ']' && GoalAt(u, c1).None?
    ensures ParseAnnotation(u) == Some(Annotation(c1 + 1, digits, None))
  {
  }

  lemma ParseWithGoal(u: string, c0: nat, c1: nat, digits: string, g: Span, gs: string, len: nat)
    requires c0 < c1 <= |u| && u[c0..c1] == digits
    requires At(u, Opening, 0) && SkipSpaces(u, |Opening|) == c0 && SkipDigits(u, c0) == c1
    requires GoalAt(u, c1) == Some(g) && g.hi <= |u| && u[g.lo..g.hi] == gs
    requires len == g.hi + 1
    ensures ParseAnnotation(u) == Some(Annotation(len, digits, Some(gs)))
  {
  }

  /** A written label followed by more text, split at the end of its count. */
  lemma LabelShape(digits: string, goal: Option<string>, rest: string)
    ensures LabelText(digits, goal) + rest == Opening + " " + digits + (GoalSuffix(goal) + "]" + rest)
    ensures (GoalSuffix(goal) + "]" + rest)[0] == if goal.Some? then '/' else ']'
  {
  }

  /** A label written by LabelText reads back as the same count digits and
      goal, whatever follows it. */
  lemma ParseLabel(digits: string, goal: Option<string>, rest: string)
    requires digits != [] && AllDigits(digits)
    requires goal.Some? ==> goal.value != [] && AllDigits(goal.value)
    ensures ParseAnnotation(LabelText(digits, goal) + rest)
            == Some(Annotation(|LabelText(digits, goal)|, digits, goal))
  {
    var u := LabelText(digits, goal) + rest;
    var tail := GoalSuffix(goal) + "]" + rest;
    LabelShape(digits, goal, rest);
    LabelCount(u, digits, tail);
    LabelTextLength(digits, goal);
    ParseAfterCount(u, digits, goal, rest, |LabelText(digits, goal)|);
  }

  lemma LabelTextLength(digits: string, goal: Option<string>)
    ensures |LabelText(digits, goal)| == |Opening| + 2 + |digits| + |GoalSuffix(goal)|
  {
  }



  /** A string that starts like a label up to the end of its count, followed by
      a goal suffix and `]`, parses as that label. */
  lemma ParseAfterCount(u: string, digits: string, goal: Option<string>, rest: string, len: nat)
    requires goal.Some? ==> goal.value != [] && AllDigits(goal.value)
    requires digits != [] && |Opening| + 1 + |digits| <= |u|
    requires At(u, Opening, 0) && SkipSpaces(u, |Opening|) == |Opening| + 1
    requires SkipDigits(u, |Opening| + 1) == |Opening| + 1 + |digits|
    requires u[|Opening| + 1..|Opening| + 1 + |digits|] == digits
    requires u[|Opening| + 1 + |digits|..] == GoalSuffix(goal) + "]" + rest
    requires len == |Opening| + 2 + |digits| + |GoalSuffix(goal)|
    ensures ParseAnnotation(u) == Some(Annotation(len, digits, goal))
  {
    var c1 := |Opening| + 1 + |digits|;
    if goal.Some? {
      var gs := goal.value;
      assert GoalSuffix(goal) + "]" + rest == "/" + gs + "]" + rest;
      WrittenGoal(u, c1, gs, rest);
      ParseWithGoal(u, |Opening| + 1, c1, digits, Span(c1 + 1, c1 + 1 + |gs|), gs, len);
    } else {
      assert GoalSuffix(goal) + "]" + rest == "]" + rest;
      WrittenClose(u, c1, rest);
      ParsePlain(u, |Opening| + 1, c1, digits);
    }
  }



  // ---------------------------------------------------------------------------
  // Where labels can start.

  /** A label starts with `[`. */
  lemma NotLabelStart(s: string, k: nat)
    requires k < |s| && s[k] != '['
    ensures AnnotationAt(s, k).None?
  {
    if k + |Opening| <= |s| {
      assert s[k..][..|Opening|][0] == s[k];
    }
  }

  /** The line with no label before `p` and the label `a` at `p` has `a` as its
      leftmost label. */
  lemma {:induction false} FindFirst(s: string, i: nat, p: nat, a: Annotation)
    requires i <= p <= |s| && AnnotationAt(s, p) == Some(a)
    requires forall q :: i <= q < p ==> AnnotationAt(s, q).None?
    ensures FindAnnotationFrom(s, i) == Some(Found(p, a))
    decreases p - i
  {
    if i < p {
      FindFirst(s, i + 1, p, a);
    }
  }

  /** A label read in `s + " "` is read in `s` too: a label ends with `]`. */
  lemma TrailingSpace(s: string, q: nat)
    requires q <= |s|
    ensures AnnotationAt(s + " ", q).Some? ==> AnnotationAt(s, q) == AnnotationAt(s + " ", q)
  {
    var t := s + " ";
    if AnnotationAt(t, q).Some? {
      var e := q + AnnotationAt(t, q).value.len;
      assert t[q..][e - q - 1] == t[e - 1] == ']';
      assert t[q..e] == s[q..e];
      AnnotationTransfer(t, s, q);
    }
  }

  /** Writing an `x` at `k`, which cannot stand inside a label, leaves the
      labels after `k` as they were and adds none before it. */
  lemma TickKeepsLabels(t: string, k: nat, q: nat)
    requires k < |t| && q <= |t|
    ensures q > k ==> AnnotationAt(t[k := 'x'], q) == AnnotationAt(t, q)
    ensures q <= k && AnnotationAt(t[k := 'x'], q).Some? ==> AnnotationAt(t, q) == AnnotationAt(t[k := 'x'], q)
  {
    var t2 := t[k := 'x'];
    if q > k {
      assert t2[q..] == t[q..];
    } else if q == k {
      NotLabelStart(t2, k);
    } else if AnnotationAt(t2, q).Some? {
      AnnotationEndsBefore(t2, q, k);
      var e := q + AnnotationAt(t2, q).value.len;
      assert t2[q..e] == t[q..e];
      AnnotationTransfer(t2, t, q);
    }
  }

  /** A label starts with `[` and the marker. */
  lemma LabelHead(t: string, p: nat)
    requires p <= |t| && AnnotationAt(t, p).Some?
    ensures p + 1 < |t| && t[p] == '[' && t[p + 1] == Marker[0]
  {
    var u := t[p..];
    assert u[..|Opening|] == Opening;
    assert t[p] == u[..|Opening|][0];
    assert t[p + 1] == u[..|Opening|][1];
  }

  /** The leading checkbox `[ ]` ends before any label of the line. */
  lemma CheckboxBeforeLabel(t: string, b: nat, p: nat)
    requires CheckboxAt(t) == Some(b) && p <= |t| && AnnotationAt(t, p).Some?
    ensures b + 3 <= p
  {
    LabelHead(t, p);
    assert !LeadAt(t, p);
    assert t[b..b + 3] == "[ ]";
    assert t[b] == t[b..b + 3][0] && t[b + 1] == t[b..b + 3][1] && t[b + 2] == t[b..b + 3][2];
  }

  // ---------------------------------------------------------------------------
  // Reading back what UpdateLine wrote.

  /** A counter as read: the number of intervals and the goal digits, if any. */
  datatype Reading = Reading(count: nat, goal: Option<string>)

  /** The count and goal the logger reads from a line: those of its leftmost label. */
  function ReadCounter(line: string): Option<Reading> {
    match FindAnnotation(line)
    case None => None
    case Some(f) =>
      assert AnnotationAt(line, f.start) == Some(f.ann);
      Some(Reading(CountOf(f.ann), f.ann.goal))
  }

  /** `line` with its label `f` replaced by `newLabel`. */
  function Relabel(line: string, f: Found, newLabel: string): string
    requires f.start + f.ann.len <= |line|
  {
    line[..f.start] + newLabel + line[f.start + f.ann.len..]
  }

  lemma CountOfWritten(len: nat, n: nat, goal: Option<string>)
    requires goal.Some? ==> goal.value != [] && AllDigits(goal.value)
    ensures WellFormed(Annotation(len, NatToString(n), goal))
    ensures CountOf(Annotation(len, NatToString(n), goal)) == n
  {
    DigitsValueOfNatToString(n);
  }

  /** `line.replace(match[0], newLabel)` rewrites the label in place: the text
      before and after it is kept, and the checkbox is ticked exactly when the
      goal is reached. */
  lemma UpdateLineInPlace(line: string, f: Found)
    requires FindAnnotation(line) == Some(f)
    ensures f.start + f.ann.len <= |line| && WellFormed(f.ann)
    ensures UpdateLine(line) == if GoalReached(f.ann) then CheckTask(Relabel(line, f, NextLabel(f.ann)))
                                else Relabel(line, f, NextLabel(f.ann))
  {
    UpdateLineIsBump(line, f);
    ReplaceAtMatch(line, f);
    BumpIsRelabel(line, f);
  }

  lemma BumpIsRelabel(line: string, f: Found)
    requires f.start + f.ann.len <= |line| && WellFormed(f.ann)
    requires ReplaceFirst(line, line[f.start..f.start + f.ann.len], NextLabel(f.ann)) == Relabel(line, f, NextLabel(f.ann))
    ensures Bump(line, f) == if GoalReached(f.ann) then CheckTask(Relabel(line, f, NextLabel(f.ann)))
                             else Relabel(line, f, NextLabel(f.ann))
  {
  }

  lemma UpdateLineIsBump(line: string, f: Found)
    requires FindAnnotation(line) == Some(f)
    ensures f.start + f.ann.len <= |line| && WellFormed(f.ann)
    ensures UpdateLine(line) == Bump(line, f)
  {
    assert AnnotationAt(line, f.start) == Some(f.ann);
  }

  /** `line.replace(match[0], newLabel)` is the relabel at the match. */
  lemma ReplaceAtMatch(line: string, f: Found)
    requires FindAnnotation(line) == Some(f)
    ensures f.start + f.ann.len <= |line| && WellFormed(f.ann)
    ensures ReplaceFirst(line, line[f.start..f.start + f.ann.len], NextLabel(f.ann)) == Relabel(line, f, NextLabel(f.ann))
  {
    FoundWellFormed(line, f);
    FirstOccurrenceIsMatch(line, f);
    ReplaceFirstAt(line, f, NextLabel(f.ann));
  }

  /** `replace` of the label's text, when it first occurs where the label was
      found, rewrites the label there. */
  lemma ReplaceFirstAt(line: string, f: Found, rep: string)
    requires f.start + f.ann.len <= |line| && IndexOf(line, line[f.start..f.start + f.ann.len]) == Some(f.start)
    ensures ReplaceFirst(line, line[f.start..f.start + f.ann.len], rep) == Relabel(line, f, rep)
  {
  }

  lemma FoundWellFormed(line: string, f: Found)
    requires FindAnnotation(line) == Some(f)
    ensures f.start + f.ann.len <= |line| && WellFormed(f.ann)
  {
    assert AnnotationAt(line, f.start) == Some(f.ann);
  }

  /** The written label reads back at the place of the old one. */
  lemma RelabelAt(line: string, f: Found)
    requires f.start + f.ann.len <= |line| && WellFormed(f.ann)
    ensures AnnotationAt(Relabel(line, f, NextLabel(f.ann)), f.start)
            == Some(Annotation(|NextLabel(f.ann)|, NatToString(CountOf(f.ann) + 1), f.ann.goal))
  {
    var p, n := f.start, f.ann.len;
    var t := Relabel(line, f, NextLabel(f.ann));
    assert t[p..] == NextLabel(f.ann) + line[p + n..];
    ParseLabel(NatToString(CountOf(f.ann) + 1), f.ann.goal, line[p + n..]);
  }

  /** The relabel adds no label before the one it rewrote. */
  lemma RelabelNoneBefore(line: string, f: Found, q: nat)
    requires FindAnnotation(line) == Some(f) && q < f.start
    ensures f.start + f.ann.len <= |line| && WellFormed(f.ann)
    ensures AnnotationAt(Relabel(line, f, NextLabel(f.ann)), q).None?
  {
    assert AnnotationAt(line, f.start) == Some(f.ann);
    var p := f.start;
    var l := NextLabel(f.ann);
    var t := Relabel(line, f, l);
    assert t[..p] == line[..p];
    assert t[p] == l[0] == '[';
    LabelBeforeStop(t, line, q, p);
    Leftmost(line, f, q);
  }

  /** After the relabel the label that was found is still the leftmost one and
      reads as the next count with the same goal. */
  lemma RelabelReadsBack(line: string, f: Found)
    requires FindAnnotation(line) == Some(f)
    ensures WellFormed(f.ann) && f.start + f.ann.len <= |line|
    ensures FindAnnotation(Relabel(line, f, NextLabel(f.ann)))
            == Some(Found(f.start, Annotation(|NextLabel(f.ann)|, NatToString(CountOf(f.ann) + 1), f.ann.goal)))
  {
    assert AnnotationAt(line, f.start) == Some(f.ann);
    var t := Relabel(line, f, NextLabel(f.ann));
    RelabelAt(line, f);
    forall q | 0 <= q < f.start ensures AnnotationAt(t, q).None? {
      RelabelNoneBefore(line, f, q);
    }
    FindFirst(t, 0, f.start, Annotation(|NextLabel(f.ann)|, NatToString(CountOf(f.ann) + 1), f.ann.goal));
  }

  /** Ticking the leading checkbox, which stands before every label, keeps the
      leftmost label where it was. */
  lemma TickReadsBack(t: string, fd: Found)
    requires FindAnnotation(t) == Some(fd)
    ensures FindAnnotation(CheckTask(t)) == Some(fd)
  {
    if CheckboxAt(t).Some? {
      var b := CheckboxAt(t).value;
      CheckboxBeforeFound(t, fd, b);
      TickedFirstLabel(t, fd, b + 1);
    }
  }

  lemma CheckboxBeforeFound(t: string, fd: Found, b: nat)
    requires FindAnnotation(t) == Some(fd) && CheckboxAt(t) == Some(b)
    ensures b + 1 < fd.start <= |t|
  {
    assert AnnotationAt(t, fd.start) == Some(fd.ann);
    CheckboxBeforeLabel(t, b, fd.start);
  }

  /** Ticking at `k`, before the leftmost label, keeps that label leftmost. */
  lemma TickedFirstLabel(t: string, fd: Found, k: nat)
    requires FindAnnotation(t) == Some(fd) && k < fd.start <= |t|
    ensures FindAnnotation(t[k := 'x']) == Some(fd)
  {
    var t2 := t[k := 'x'];
    assert AnnotationAt(t, fd.start) == Some(fd.ann);
    TickKeepsLabels(t, k, fd.start);
    forall q | 0 <= q < fd.start ensures AnnotationAt(t2, q).None? {
      TickNoLabel(t, fd, k, q);
    }
    FindFirst(t2, 0, fd.start, fd.ann);
  }

  lemma TickNoLabel(t: string, fd: Found, k: nat, q: nat)
    requires FindAnnotation(t) == Some(fd) && k < |t| && q < fd.start <= |t|
    ensures AnnotationAt(t[k := 'x'], q).None?
  {
    TickKeepsLabels(t, k, q);
    Leftmost(t, fd, q);
  }

  /** A line without a label gets ` [<marker>:: 1]` appended, and that is then
      its leftmost label. */
  lemma AppendReadsBack(line: string)
    requires FindAnnotation(line).None?
    ensures FindAnnotation(line + FirstLabel) == Some(Found(|line| + 1, Annotation(|Label(1, None)|, "1", None)))
  {
    var t := line + FirstLabel;
    var p := |line| + 1;
    var a := Annotation(|Label(1, None)|, "1", None);
    FirstLabelAt(line);
    forall q | 0 <= q < p ensures AnnotationAt(t, q).None? {
      AppendNoneBefore(line, q);
    }
    FindFirst(t, 0, p, a);
  }

  lemma AppendNoneBefore(line: string, q: nat)
    requires FindAnnotation(line).None? && q <= |line|
    ensures AnnotationAt(line + FirstLabel, q).None?
  {
    var t := line + FirstLabel;
    assert t[|line|] == ' ' && t[|line| + 1] == '[';
    if q == |line| {
      NotLabelStart(t, q);
    } else {
      assert t[..|line| + 1] == (line + " ")[..|line| + 1];
      LabelBeforeStop(t, line + " ", q, |line| + 1);
      TrailingSpace(line, q);
    }
  }

  /** UpdateLine on a line that has a label: the leftmost label stays where it
      was and reads as the next count with the same goal. */
  lemma BumpReadsBack(line: string, f: Found)
    requires FindAnnotation(line) == Some(f)
    ensures WellFormed(f.ann)
    ensures FindAnnotation(UpdateLine(line))
            == Some(Found(f.start, Annotation(|NextLabel(f.ann)|, NatToString(CountOf(f.ann) + 1), f.ann.goal)))
  {
    UpdateLineInPlace(line, f);
    RelabelReadsBack(line, f);
    if GoalReached(f.ann) {
      var a := Annotation(|NextLabel(f.ann)|, NatToString(CountOf(f.ann) + 1), f.ann.goal);
      TickReadsBack(Relabel(line, f, NextLabel(f.ann)), Found(f.start, a));
    }
  }

  /** What one logged interval does to the reading: a first count of 1 with
      no goal, or the count plus one towards the same goal. */
  function NextReading(r: Option<Reading>): Option<Reading> {
    match r
    case None => Some(Reading(1, None))
    case Some(c) => Some(Reading(c.count + 1, c.goal))
  }

  lemma CountsAfterBump(line: string, f: Found)
    requires FindAnnotation(line) == Some(f)
    ensures WellFormed(f.ann)
    ensures ReadCounter(line) == Some(Reading(CountOf(f.ann), f.ann.goal))
    ensures ReadCounter(UpdateLine(line)) == Some(Reading(CountOf(f.ann) + 1, f.ann.goal))
    ensures ReadCounter(UpdateLine(line)) == NextReading(ReadCounter(line))
  {
    var r := Reading(CountOf(f.ann), f.ann.goal);
    assert ReadCounter(line) == Some(r) by {
      assert AnnotationAt(line, f.start) == Some(f.ann);
    }
    assert NextReading(Some(r)) == Some(Reading(r.count + 1, r.goal));
    BumpReadsBack(line, f);
    CountOfWritten(|NextLabel(f.ann)|, CountOf(f.ann) + 1, f.ann.goal);
  }

  lemma CountsAfterAppend(line: string)
    requires FindAnnotation(line).None?
    ensures ReadCounter(UpdateLine(line)) == Some(Reading(1, None))
    ensures ReadCounter(UpdateLine(line)) == NextReading(ReadCounter(line))
  {
    AppendReadsBack(line);
    CountOfWritten(|Label(1, None)|, 1, None);
  }

  /** The logger's step read back: UpdateLine turns the reading of a line into
      the next one. */
  lemma UpdateLineCounts(line: string)
    ensures ReadCounter(UpdateLine(line)) == NextReading(ReadCounter(line))
  {
    if FindAnnotation(line).Some? {
      CountsAfterBump(line, FindAnnotation(line).value);
    } else {
      CountsAfterAppend(line);
    }
  }

  // ---------------------------------------------------------------------------
  // The leading checkbox.

  /** The checkbox test reads only the characters up to the box's `]`. */
  lemma CheckboxLocal(s: string, t: string, n: nat)
    requires CheckboxAt(s).Some? && CheckboxAt(s).value + 3 <= n <= |s| && n <= |t| && s[..n] == t[..n]
    ensures CheckboxAt(t) == CheckboxAt(s)
  {
    var b := CheckboxAt(s).value;
    var a := SkipSpaces(s, 0);
    forall k | 0 <= k < n ensures s[k] == t[k] {
      assert s[..n][k] == t[..n][k];
    }
    SkipSpacesLocal(s, t, 0, n);
    SkipSpacesLocal(s, t, a + 1, n);
    assert t[b..b + 3] == s[b..b + 3];
  }

  /** Once ticked, the leading box is no longer an open one. */
  lemma TickedBoxGone(t: string)
    requires CheckboxAt(t).Some?
    ensures CheckboxAt(CheckTask(t)).None?
  {
    var b := CheckboxAt(t).value;
    var t2 := t[b + 1 := 'x'];
    TickedSameLead(t, b);
    assert t2[b..b + 3][1] == 'x';
  }

  /** The tick leaves the bullet and the spaces before the box as they were. */
  lemma TickedSameLead(t: string, b: nat)
    requires CheckboxAt(t) == Some(b)
    ensures b + 3 <= |t|
    ensures var t2, a := t[b + 1 := 'x'], SkipSpaces(t, 0);
      SkipSpaces(t2, 0) == a && a < b && t2[a] in "-*+" && SkipSpaces(t2, a + 1) == b
  {
    var t2 := t[b + 1 := 'x'];
    var a := SkipSpaces(t, 0);
    assert t2[..b + 1] == t[..b + 1];
    SkipSpacesLocal(t, t2, 0, b + 1);
    assert t2[a] == t[a];
    SkipSpacesLocal(t, t2, a + 1, b + 1);
  }

  /** Rewriting the label leaves the leading checkbox as it was: the box ends
      before the label starts. */
  lemma RelabelKeepsCheckbox(line: string, f: Found)
    requires f.start + f.ann.len <= |line| && WellFormed(f.ann)
    requires AnnotationAt(line, f.start) == Some(f.ann)
    ensures CheckboxAt(Relabel(line, f, NextLabel(f.ann))) == CheckboxAt(line)
  {
    var p := f.start;
    var t := Relabel(line, f, NextLabel(f.ann));
    RelabelAt(line, f);
    assert t[..p] == line[..p];
    if CheckboxAt(line).Some? {
      CheckboxBeforeLabel(line, CheckboxAt(line).value, p);
      CheckboxLocal(line, t, p);
    }
    if CheckboxAt(t).Some? {
      CheckboxBeforeLabel(t, CheckboxAt(t).value, p);
      CheckboxLocal(t, line, p);
    }
  }

  lemma FirstLabelAt(line: string)
    ensures AnnotationAt(line + FirstLabel, |line| + 1) == Some(Annotation(|Label(1, None)|, "1", None))
  {
    assert NatToString(1) == "1";
    assert (line + FirstLabel)[|line| + 1..] == LabelText("1", None) + [];
    ParseLabel("1", None, []);
  }

  /** A box read after the append lies inside the original line. */
  lemma AppendedBoxInside(line: string)
    requires CheckboxAt(line + FirstLabel).Some?
    ensures CheckboxAt(line + FirstLabel).value + 3 <= |line|
  {
    var t := line + FirstLabel;
    var b := CheckboxAt(t).value;
    AppendedLabelBound(line, b);
    assert t[b..b + 3] == "[ ]";
    assert t[b + 2] == t[b..b + 3][2] == ']';
    assert t[|line|] == FirstLabel[0] == ' ';
  }

  /** The checkbox of a line with the first label appended ends before that label. */
  lemma AppendedLabelBound(line: string, b: nat)
    requires CheckboxAt(line + FirstLabel) == Some(b)
    ensures b + 3 <= |line| + 1
  {
    FirstLabelAt(line);
    CheckboxBeforeLabel(line + FirstLabel, b, |line| + 1);
  }

  /** Appending the first label leaves the leading checkbox as it was. */
  lemma AppendKeepsCheckbox(line: string)
    ensures CheckboxAt(line + FirstLabel) == CheckboxAt(line)
  {
    var t := line + FirstLabel;
    assert t[..|line|] == line[..|line|];
    if CheckboxAt(line).Some? {
      CheckboxLocal(line, t, |line|);
    }
    if CheckboxAt(t).Some? {
      AppendedBoxInside(line);
      CheckboxLocal(t, line, |line|);
    }
  }

  /** Whether logging this line ticks its checkbox: it has a label whose goal
      the incremented count reaches. */
  predicate Ticks(line: string) {
    match FindAnnotation(line)
    case None => false
    case Some(f) =>
      assert AnnotationAt(line, f.start) == Some(f.ann);
      GoalReached(f.ann)
  }

  /** Logging a line that has a label ticks its leading open checkbox exactly
      when the goal is reached; that `[ ]` is the only one it changes. */
  lemma BumpCheckbox(line: string, f: Found)
    requires FindAnnotation(line) == Some(f)
    ensures f.start + f.ann.len <= |line| && WellFormed(f.ann)
    ensures CheckboxAt(line).Some? ==> CheckboxAt(line).value + 3 <= f.start
    ensures !GoalReached(f.ann) ==> CheckboxAt(UpdateLine(line)) == CheckboxAt(line)
    ensures GoalReached(f.ann) ==> CheckboxAt(UpdateLine(line)).None?
    ensures GoalReached(f.ann) && CheckboxAt(line).Some? ==>
              UpdateLine(line) == Relabel(line, f, NextLabel(f.ann))[CheckboxAt(line).value + 1 := 'x']
  {
    assert AnnotationAt(line, f.start) == Some(f.ann);
    UpdateLineInPlace(line, f);
    var t := Relabel(line, f, NextLabel(f.ann));
    RelabelKeepsCheckbox(line, f);
    if CheckboxAt(line).Some? {
      CheckboxBeforeLabel(line, CheckboxAt(line).value, f.start);
    }
    if GoalReached(f.ann) && CheckboxAt(t).Some? {
      TickedBoxGone(t);
    }
  }

  /** The completion that reaches the goal ticks the box: a list item `- [ ] `
      whose text holds no `[` before its label `n/g`, with `n + 1` reaching
      `g`, becomes `- [x] ` with the label `n+1/g`. */
  lemma GoalCompletionTicks(w: string, n: nat, g: nat)
    requires forall k :: 0 <= k < |w| ==> w[k] != '['
    requires n + 1 >= g
    ensures UpdateLine("- [ ] " + w + " " + Label(n, Some(NatToString(g))))
            == "- [x] " + w + " " + Label(n + 1, Some(NatToString(g)))
  {
    var goal := Some(NatToString(g));
    var head := "- [ ] " + w + " ";
    var line := head + Label(n, goal);
    var ann := Annotation(|Label(n, goal)|, NatToString(n), goal);
    var f := Found(|head|, ann);
    var rest := w + " " + Label(n + 1, goal);
    FindsLabel(w, n, goal);
    GoalReachedAt(ann, n, g);
    RelabelAfter(head, n, goal);
    Regroup("- [ ] ", w, " ", Label(n + 1, goal));
    TickAfterRelabel(line, f, rest);
    Regroup("- [x] ", w, " ", Label(n + 1, goal));
  }

  lemma Regroup(a: string, b: string, c: string, d: string)
    ensures a + (b + c + d) == a + b + c + d
  {
  }

  /** A relabelled list item `- [ ] ` whose goal is reached comes out ticked. */
  lemma TickAfterRelabel(line: string, f: Found, rest: string)
    requires FindAnnotation(line) == Some(f) && WellFormed(f.ann) && GoalReached(f.ann)
    requires f.start + f.ann.len <= |line| && Relabel(line, f, NextLabel(f.ann)) == "- [ ] " + rest
    ensures UpdateLine(line) == "- [x] " + rest
  {
    UpdateLineInPlace(line, f);
    TickListItem(rest);
  }

  /** The label after such a head is the leftmost label of the line. */
  lemma FindsLabel(w: string, n: nat, goal: Option<string>)
    requires forall k :: 0 <= k < |w| ==> w[k] != '['
    requires goal.Some? ==> goal.value != [] && AllDigits(goal.value)
    ensures FindAnnotation("- [ ] " + w + " " + Label(n, goal))
            == Some(Found(|"- [ ] " + w + " "|, Annotation(|Label(n, goal)|, NatToString(n), goal)))
  {
    var head := "- [ ] " + w + " ";
    var line := head + Label(n, goal);
    ParseLabel(NatToString(n), goal, []);
    assert line[|head|..] == Label(n, goal) + [];
    forall q | 0 <= q < |head| ensures AnnotationAt(line, q).None? {
      NoLabelInHead(w, q, Label(n, goal));
    }
    FindFirst(line, 0, |head|, Annotation(|Label(n, goal)|, NatToString(n), goal));
  }

  /** The label `n/g` with `n + 1 >= g` reaches its goal, and the next label is `n+1/g`. */
  lemma GoalReachedAt(ann: Annotation, n: nat, g: nat)
    requires ann == Annotation(|Label(n, Some(NatToString(g)))|, NatToString(n), Some(NatToString(g)))
    requires n + 1 >= g
    ensures WellFormed(ann) && GoalReached(ann) && NextLabel(ann) == Label(n + 1, ann.goal)
  {
    DigitsValueOfNatToString(n);
    DigitsValueOfNatToString(g);
  }

  /** Rewriting the label after `head` with the next one gives `head` and the next label. */
  lemma RelabelAfter(head: string, n: nat, goal: Option<string>)
    ensures Relabel(head + Label(n, goal), Found(|head|, Annotation(|Label(n, goal)|, NatToString(n), goal)), Label(n + 1, goal))
            == head + Label(n + 1, goal)
  {
    var line := head + Label(n, goal);
    assert line[..|head|] == head;
    assert line[|head| + |Label(n, goal)|..] == [];
  }

  /** No label starts inside `- [ ] ` followed by text without `[` and a blank. */
  lemma NoLabelInHead(w: string, q: nat, tail: string)
    requires forall k :: 0 <= k < |w| ==> w[k] != '['
    requires q < |w| + 7
    ensures AnnotationAt("- [ ] " + w + " " + tail, q).None?
  {
    var line := "- [ ] " + w + " " + tail;
    if q == 2 {
      var u := line[2..];
      assert u[1] == ' ';
      if |Opening| <= |u| {
        assert u[..|Opening|][1] == ' ' != Opening[1];
      }
    } else {
      assert line[q] != '[' by {
        if 6 <= q < 6 + |w| {
          assert line[q] == w[q - 6];
        }
      }
      NotLabelStart(line, q);
    }
  }

  /** Ticking a list item `- [ ] ` turns its box into `[x]`. */
  lemma TickListItem(rest: string)
    ensures CheckTask("- [ ] " + rest) == "- [x] " + rest
  {
    var t := "- [ ] " + rest;
    assert t[2] == '[' && t[3] == ' ' && t[4] == ']';
    assert t[2..5] == "[ ]";
    assert SpaceAt(t, 1);
    BoxFromShape(t, 0, 2);
    assert t[3 := 'x'] == "- [x] " + rest;
  }

  /** Logging a line without a label leaves its checkbox as it was. */
  lemma AppendCheckbox(line: string)
    requires FindAnnotation(line).None?
    ensures CheckboxAt(UpdateLine(line)) == CheckboxAt(line)
  {
    AppendKeepsCheckbox(line);
  }
}

=== FILE: text.dfy ===
/** Character and string helpers in JavaScript's terms: what `\s` and `\d`
    match, `includes`, `indexOf`, `replace` with a string pattern,
    `substring(0, n)`, `trim`, and decimal numerals (`${n}` and `parseInt`). */
module Text {

  datatype Option<+T> = None | Some(value: T)

  /** The characters JavaScript's `\s` matches (and `trim` removes): the ASCII
      blanks, the line terminators and the Unicode space separators. */
  predicate IsSpace(c: char) {
    c == ' ' || c == '\t' || c == '\n' || c == '\U{0B}' || c == '\U{0C}' || c == '\r'
    || c == '\U{A0}' || c == '\U{1680}' || ('\U{2000}' <= c <= '\U{200A}')
    || c == '\U{2028}' || c == '\U{2029}' || c == '\U{202F}' || c == '\U{205F}'
    || c == '\U{3000}' || c == '\U{FEFF}'
  }

  /** The characters JavaScript's `.` refuses to match outside dotAll mode. */
  predicate IsLineTerminator(c: char) {
    c == '\n' || c == '\r' || c == '\U{2028}' || c == '\U{2029}'
  }

  /** JavaScript's `\d`: an ASCII digit. */
  predicate IsDigit(c: char) {
    '0' <= c <= '9'
  }

  predicate AllDigits(s: string) {
    forall k :: 0 <= k < |s| ==> IsDigit(s[k])
  }

  /** `p` occurs in `s` starting at index `i`. */
  predicate At(s: string, p: string, i: nat) {
    i + |p| <= |s| && s[i..i + |p|] == p
  }

  /** The first occurrence of `p` in `s` at or after `i`. */
  function FindFrom(s: string, p: string, i: nat): (r: Option<nat>)
    decreases |s| - i
    ensures r.Some? ==> i <= r.value && At(s, p, r.value)
    ensures forall j {:trigger At(s, p, j)} :: i <= j && (r.None? || j < r.value) ==> !At(s, p, j)
  {
    if i + |p| > |s| then None
    else if s[i..i + |p|] == p then Some(i)
    else FindFrom(s, p, i + 1)
  }

  /** `s.indexOf(p)`, with `None` for -1. */
  function IndexOf(s: string, p: string): Option<nat> {
    FindFrom(s, p, 0)
  }

  /** `s.includes(p)`. */
  predicate Contains(s: string, p: string) {
    IndexOf(s, p).Some?
  }

  lemma ContainsIff(s: string, p: string)
    ensures Contains(s, p) <==> exists j :: At(s, p, j)
  {
    if exists j :: At(s, p, j) {
      var j :| At(s, p, j);
    }
  }

  /** `s.replace(p, rep)` with a string pattern: only the first occurrence. */
  function ReplaceFirst(s: string, p: string, rep: string): string {
    match IndexOf(s, p)
    case Some(i) => s[..i] + rep + s[i + |p|..]
    case None => s
  }

  /** The number of UTF-16 code units JavaScript stores for `c`: two for a
      character outside the Basic Multilingual Plane, one otherwise. */
  function Utf16Units(c: char): nat {
    if c as int < 0x1_0000 then 1 else 2
  }

  /** `s.length`: the number of UTF-16 code units of `s`. */
  function Utf16Length(s: string): nat {
    if s == [] then 0 else Utf16Units(s[0]) + Utf16Length(s[1..])
  }

  /** The high surrogate code unit of a character that needs two units, and
      nothing for one that needs one. */
  function HighSurrogate(c: char): (r: Option<int>)
    ensures r.Some? <==> Utf16Units(c) == 2
    ensures r.Some? ==> 0xD800 <= r.value < 0xDC00
  {
    if c as int < 0x1_0000 then None else Some(0xD800 + (c as int - 0x1_0000) / 0x400)
  }

  /** What `substring(0, n)` keeps of a string: the characters that fit whole
      into `n` code units, and, when the cut falls inside a surrogate pair,
      the high surrogate of that pair as a lone code unit. */
  datatype Cut = Cut(whole: string, high: Option<int>)

  /** `s.substring(0, n)` for n >= 0, counted in UTF-16 code units. */
  function Prefix(s: string, n: nat): (r: Cut)
    decreases |s|
    ensures r.whole <= s && Utf16Length(r.whole) <= n
    ensures |r.whole| < |s| ==> Utf16Length(r.whole) + Utf16Units(s[|r.whole|]) > n
    ensures r.high.Some? <==> |r.whole| < |s| && Utf16Length(r.whole) < n
    ensures r.high.Some? ==> r.high == HighSurrogate(s[|r.whole|])
  {
    if s == [] || n == 0 then Cut([], None)
    else if Utf16Units(s[0]) <= n then
      var t := Prefix(s[1..], n - Utf16Units(s[0]));
      assert ([s[0]] + t.whole)[1..] == t.whole;
      assert |t.whole| < |s[1..]| ==> s[1 + |t.whole|] == s[1..][|t.whole|];
      Cut([s[0]] + t.whole, t.high)
    else
      Cut([], HighSurrogate(s[0]))
  }

  /** `line.includes(key)` for a key that `substring` cut: the whole
      characters occur, followed, when the cut split a pair, by a character
      whose high surrogate is the one kept. */
  predicate Includes(line: string, key: Cut) {
    if key.high.None? then Contains(line, key.whole)
    else exists j :: 0 <= j < |line| - |key.whole| && At(line, key.whole, j)
                     && HighSurrogate(line[j + |key.whole|]) == key.high
  }

  /** Text inside the Basic Multilingual Plane has one code unit per character. */
  lemma {:induction false} PlainLength(w: string)
    requires forall k :: 0 <= k < |w| ==> Utf16Units(w[k]) == 1
    ensures Utf16Length(w) == |w|
  {
    if w != [] {
      PlainLength(w[1..]);
    }
  }

  /** On text inside the Basic Multilingual Plane the cut is the first `n`
      characters, or the whole text when it is shorter. */
  lemma PrefixOfPlainText(s: string, n: nat)
    requires forall k :: 0 <= k < |s| ==> Utf16Units(s[k]) == 1
    ensures Prefix(s, n) == Cut(if |s| <= n then s else s[..n], None)
  {
    var w := Prefix(s, n).whole;
    assert forall k :: 0 <= k < |w| ==> w[k] == s[k];
    PlainLength(w);
  }

  /** A character outside the Basic Multilingual Plane counts twice: five
      code units of a text that starts with one keep four characters. */
  lemma PrefixCountsCodeUnits()
    ensures Prefix("\U{1F525} Fix bug", 5) == Cut("\U{1F525} Fi", None)
  {
    var rest := " Fix bug";
    var s := ['\U{1F525}'] + rest;
    assert s == "\U{1F525} Fix bug" && s[1..] == rest;
    PrefixOfPlainText(rest, 3);
    assert rest[..3] == " Fi";
    assert [s[0]] + " Fi" == "\U{1F525} Fi";
  }

  /** A cut through a surrogate pair keeps the pair's high surrogate. */
  lemma PrefixSplitsPair()
    ensures Prefix("ab\U{1F525}", 3) == Cut("ab", Some(0xD83D))
  {
    var u := "ab\U{1F525}";
    assert u[1..][1..] == "\U{1F525}";
    assert Prefix(u[1..][1..], 1) == Cut([], Some(0xD83D));
    assert Prefix(u[1..], 2) == Cut("b", Some(0xD83D));
  }

  /** The end of the run of whitespace starting at index `i`. */
  function SpacesFrom(s: string, i: nat): (k: nat)
    requires i <= |s|
    decreases |s| - i
    ensures i <= k <= |s|
    ensures k < |s| ==> !IsSpace(s[k])
  {
    if i < |s| && IsSpace(s[i]) then SpacesFrom(s, i + 1) else i
  }

  /** The start of the run of whitespace ending just before index `j`. */
  function SpacesBefore(s: string, j: nat): (k: nat)
    requires j <= |s|
    ensures k <= j
    ensures 0 < k ==> !IsSpace(s[k - 1])
  {
    if 0 < j && IsSpace(s[j - 1]) then SpacesBefore(s, j - 1) else j
  }

  /** Everything `SpacesFrom` skips is whitespace. */
  lemma {:induction false} SpacesFromSkipsSpaces(s: string, i: nat, j: nat)
    requires i <= |s| && i <= j < SpacesFrom(s, i)
    ensures IsSpace(s[j])
    decreases |s| - i
  {
    if i < j {
      SpacesFromSkipsSpaces(s, i + 1, j);
    }
  }

  /** Everything `SpacesBefore` skips is whitespace. */
  lemma {:induction false} SpacesBeforeSkipsSpaces(s: string, j: nat, i: nat)
    requires j <= |s| && SpacesBefore(s, j) <= i < j
    ensures IsSpace(s[i])
    decreases j
  {
    if i < j - 1 {
      SpacesBeforeSkipsSpaces(s, j - 1, i);
    }
  }

  /** The number of whitespace characters `s` starts with. */
  function LeadingSpaces(s: string): (k: nat)
    ensures k <= |s|
    ensures k < |s| ==> !IsSpace(s[k])
  {
    SpacesFrom(s, 0)
  }

  /** The index where the whitespace `s` ends with begins. */
  function TrailingStart(s: string): (k: nat)
    ensures k <= |s|
    ensures 0 < k ==> !IsSpace(s[k - 1])
  {
    SpacesBefore(s, |s|)
  }

  /** `s.trim()`: `s` without its leading and trailing whitespace. */
  function Trim(s: string): (r: string)
    ensures r == s[LeadingSpaces(s)..if LeadingSpaces(s) < TrailingStart(s) then TrailingStart(s) else LeadingSpaces(s)]
    ensures r != [] ==> !IsSpace(r[0]) && !IsSpace(r[|r| - 1])
  {
    var i, j := LeadingSpaces(s), TrailingStart(s);
    if i < j then s[i..j] else []
  }

  /** A string with no whitespace at either end is its own trim. */
  lemma TrimOfTrimmed(s: string)
    requires s != [] ==> !IsSpace(s[0]) && !IsSpace(s[|s| - 1])
    ensures Trim(s) == s
  {
  }

  function DigitChar(d: nat): (c: char)
    requires d < 10
    ensures IsDigit(c)
  {
    ('0' as int + d) as char
  }

  function DigitValue(c: char): nat
    requires IsDigit(c)
  {
    c as int - '0' as int
  }

  /** The decimal numeral JavaScript prints for a non-negative integer: digits
      only, and no leading zero unless the number is zero. */
  function NatToString(n: nat): (r: string)
    ensures r != [] && AllDigits(r)
    ensures r[0] == '0' ==> n == 0
  {
    if n < 10 then [DigitChar(n)] else NatToString(n / 10) + [DigitChar(n % 10)]
  }

  /** `'' + i` for an integer. */
  function IntToString(i: int): string {
    if i < 0 then "-" + NatToString(-i) else NatToString(i)
  }

  /** `parseInt` of a string of decimal digits (leading zeros allowed). */
  function DigitsValue(s: string): nat
    requires AllDigits(s)
  {
    if s == [] then 0 else DigitsValue(s[..|s| - 1]) * 10 + DigitValue(s[|s| - 1])
  }

  /** Reading back what NatToString wrote gives the number again. */
  lemma {:induction false} DigitsValueOfNatToString(n: nat)
    ensures DigitsValue(NatToString(n)) == n
  {
    if n >= 10 {
      var s := NatToString(n);
      assert s[..|s| - 1] == NatToString(n / 10);
      DigitsValueOfNatToString(n / 10);
    }
  }
}

=== FILE: timer.dfy ===
/** The Pomodoro session state machine of `TimerService`: the session record,
    its transitions as functions of the old record and the clock, the time
    left, and the service object whose methods update the record in place. */
module Timer {
  import opened Text
  import Counter

  /** The session's `state` field: `'IDLE' | 'WORK' | 'BREAK'`. */
  datatype Mode = Idle | Work | Break

  /** The optional per-cycle durations, in minutes. */
  datatype Overrides = Overrides(workDuration: Option<int>, shortBreakDuration: Option<int>)

  /** The plugin settings (durations in minutes). */
  datatype Settings = Settings(
    tag: string,
    workDuration: int,
    shortBreakDuration: int,
    longBreakDuration: int,
    subtaskCount: int,
    enableSubtaskLimit: bool,
    defaultSubtasksExpanded: bool,
    showCompletedSubtasks: bool,
    showCompletedToday: bool)

  const DefaultSettings: Settings :=
    Settings("#pomodoro", 25, 5, 15, 3, true, true, false, false)

  /** The task a session is bound to: the file's path, the line index and the
      line's text when the session started. */
  datatype TaskRef = TaskRef(path: string, line: int, text: string)

  /** The persisted session record.  Timestamps are milliseconds; `None` stands
      for both `null` and an absent field. */
  datatype Session = Session(
    mode: Mode,
    startTime: Option<int>,
    duration: int,
    taskId: Option<string>,
    taskLine: int,
    taskFile: string,
    taskText: string,
    completedSubtasks: seq<string>,
    pausedTime: Option<int>,
    overrides: Option<Overrides>)

  /** A timestamp field is truthy: present and not 0. */
  predicate IsSet(t: Option<int>) {
    t.Some? && t.value != 0
  }

  /** The record of a service with no session, as `stopSession` writes it. */
  const IdleSession: Session :=
    Session(Idle, None, 0, None, -1, "", "", [], None, None)

  /** `a ?? b` for an optional number. */
  function OrElse(a: Option<int>, b: int): (r: int)
    ensures a.Some? ==> r == a.value
    ensures a.None? ==> r == b
  {
    if a.Some? then a.value else b
  }

  /** The duration a new session of `kind` gets: the override for that kind
      when one is given, else the setting. */
  function StartDuration(kind: Mode, overrides: Option<Overrides>, settings: Settings): int
    requires kind != Idle
  {
    if kind == Work then
      OrElse(if overrides.Some? then overrides.value.workDuration else None, settings.workDuration)
    else
      OrElse(if overrides.Some? then overrides.value.shortBreakDuration else None, settings.shortBreakDuration)
  }

  /** `startSession(task, kind, overrides)` at time `now`. */
  function Started(task: TaskRef, kind: Mode, overrides: Option<Overrides>, settings: Settings, now: int): Session
    requires kind != Idle
  {
    Session(kind, Some(now), StartDuration(kind, overrides, settings),
            Some(task.path + ":" + IntToString(task.line)), task.line, task.path, task.text,
            [], None, overrides)
  }

  /** `pauseSession` at time `now`: only a running session is paused, and its
      time left then stays at what it was at `now`. */
  function Paused(s: Session, now: int): (r: Session)
    ensures s.mode == Idle || IsSet(s.pausedTime) ==> r == s
    ensures s.mode != Idle && !IsSet(s.pausedTime) ==>
              r.pausedTime == Some(now) && r.(pausedTime := s.pausedTime) == s
    ensures s.mode != Idle && !IsSet(s.pausedTime) && now != 0 ==>
              IsSet(r.pausedTime) && forall t :: TimeLeft(r, t) == TimeLeft(s, now)
  {
    if s.mode != Idle && !IsSet(s.pausedTime) then s.(pausedTime := Some(now)) else s
  }

  /** `resumeSession` at time `now`: the start moves forward by the length of
      the pause, so that the elapsed time counts running time only and the
      time left at `now` is the one frozen at the pause. */
  function Resumed(s: Session, now: int): (r: Session)
    ensures !(s.mode != Idle && IsSet(s.pausedTime) && IsSet(s.startTime)) ==> r == s
    ensures s.mode != Idle && IsSet(s.pausedTime) && IsSet(s.startTime) ==>
              !IsSet(r.pausedTime) && r.mode == s.mode && r.duration == s.duration
              && (IsSet(r.startTime) ==> TimeLeft(r, now) == TimeLeft(s, now))
    ensures s.mode != Idle && IsSet(s.pausedTime) && IsSet(s.startTime) ==>
              r.startTime == Some(s.startTime.value + (now - s.pausedTime.value))
              && r.(startTime := s.startTime, pausedTime := s.pausedTime) == s
  {
    if s.mode != Idle && IsSet(s.pausedTime) && IsSet(s.startTime) then
      s.(startTime := Some(s.startTime.value + (now - s.pausedTime.value)), pausedTime := None)
    else
      s
  }

  /** `resetSession` at time `now`: the clock of a session restarts. */
  function Reset(s: Session, now: int): (r: Session)
    ensures s.mode == Idle ==> r == s
    ensures s.mode != Idle ==> !IsSet(r.pausedTime) && r.mode == s.mode && r.duration == s.duration
    ensures s.mode != Idle && now != 0 ==> TimeLeft(r, now) == Max0((s.duration * 60) as real)
  {
    if s.mode != Idle then s.(startTime := Some(now), pausedTime := None) else s
  }

  /** `applyOverrides(work, shortBreak)`: both overrides are stored, and the
      running session's duration follows the one for its kind. */
  function WithOverrides(s: Session, work: int, shortBreak: int): Session {
    s.(overrides := Some(Overrides(Some(work), Some(shortBreak))),
       duration := if s.mode == Work then work else if s.mode == Break then shortBreak else s.duration)
  }

  function Opposite(m: Mode): (r: Mode)
    requires m != Idle
    ensures r != Idle && r != m
  {
    if m == Work then Break else Work
  }

  /** `switchMode` at time `now`; `resolves` tells whether the session's file
      still exists in the vault. */
  function Switched(s: Session, resolves: bool, settings: Settings, now: int): Session {
    if s.mode == Idle then s
    else if resolves then
      Started(TaskRef(s.taskFile, s.taskLine, s.taskText), Opposite(s.mode), s.overrides, settings, now)
    else
      IdleSession
  }

  function Max0(x: real): (r: real)
    ensures r >= 0.0 && r >= x
    ensures r == x || r == 0.0
  {
    if x > 0.0 then x else 0.0
  }

  /** `getTimeLeft()` at time `now`, in seconds: the duration less the time
      elapsed up to the pause (or up to `now` when running), never below zero,
      and zero when no start time is set. */
  function TimeLeft(s: Session, now: int): real {
    if !IsSet(s.startTime) then 0.0
    else
      var stop := if IsSet(s.pausedTime) then s.pausedTime.value else now;
      Max0((s.duration * 60) as real - (stop - s.startTime.value) as real / 1000.0)
  }

  // ---------------------------------------------------------------------------
  // The time left.

  /** The time left is never negative, is zero without a start time, and never
      exceeds the duration once the clock has started. */
  lemma TimeLeftBounds(s: Session, now: int)
    ensures TimeLeft(s, now) >= 0.0
    ensures !IsSet(s.startTime) ==> TimeLeft(s, now) == 0.0
    ensures IsSet(s.startTime) && !IsSet(s.pausedTime) && s.startTime.value <= now && s.duration >= 0
            ==> TimeLeft(s, now) <= (s.duration * 60) as real
  {
  }

  /** While paused the time left does not move. */
  lemma TimeLeftFrozen(s: Session, a: int, b: int)
    requires IsSet(s.pausedTime)
    ensures TimeLeft(s, a) == TimeLeft(s, b)
  {
  }

  /** As the clock advances the time left can only shrink. */
  lemma TimeLeftNonIncreasing(s: Session, a: int, b: int)
    requires a <= b
    ensures TimeLeft(s, b) <= TimeLeft(s, a)
  {
    if IsSet(s.startTime) && !IsSet(s.pausedTime) {
      assert (b - s.startTime.value) as real / 1000.0 >= (a - s.startTime.value) as real / 1000.0;
    }
  }

  /** A running session has expired exactly when its whole duration has
      elapsed: `getTimeLeft() <= 0` on a tick. */
  lemma ExpiredIff(s: Session, now: int)
    requires IsSet(s.startTime) && !IsSet(s.pausedTime)
    ensures TimeLeft(s, now) == 0.0 <==> now - s.startTime.value >= s.duration * 60000
  {
    var e := (now - s.startTime.value) as real / 1000.0;
    assert e * 1000.0 == (now - s.startTime.value) as real;
  }

  // ---------------------------------------------------------------------------
  // Pause, resume and reset.

  /** A pause followed by a resume leaves the time left as it stood when the
      pause began, and from then on the session counts down as if the pause
      had never happened (`d` milliseconds later on both clocks). */
  lemma PauseResumeKeepsTimeLeft(s: Session, p: int, r: int, d: int)
    requires s.mode != Idle && IsSet(s.startTime) && s.startTime.value > 0 && !IsSet(s.pausedTime)
    requires 0 < p <= r
    ensures TimeLeft(Resumed(Paused(s, p), r), r) == TimeLeft(s, p)
    ensures TimeLeft(Resumed(Paused(s, p), r), r + d) == TimeLeft(s, p + d)
  {
    var s2 := Resumed(Paused(s, p), r);
    assert s2.startTime == Some(s.startTime.value + (r - p)) && s2.pausedTime.None?;
    assert (r + d) - (s.startTime.value + (r - p)) == (p + d) - s.startTime.value;
  }

  /** A paused session stays paused at its first pause time. */
  lemma PauseIdempotent(s: Session, a: int, b: int)
    requires a != 0
    ensures Paused(Paused(s, a), b) == Paused(s, a)
  {
  }

  /** Resetting restarts the full duration, leaves the session unpaused and
      keeps its kind, duration, task and overrides. */
  lemma ResetRestarts(s: Session, now: int)
    requires s.mode != Idle && now != 0
    ensures var t := Reset(s, now);
      TimeLeft(t, now) == Max0((s.duration * 60) as real) && !IsSet(t.pausedTime)
      && t.(startTime := s.startTime, pausedTime := s.pausedTime) == s
  {
  }

  /** With no session, pausing, resuming, resetting and switching do nothing,
      and no time is left. */
  lemma IdleIsInert(s: Session, resolves: bool, settings: Settings, now: int)
    requires s.mode == Idle
    ensures Paused(s, now) == s && Resumed(s, now) == s && Reset(s, now) == s
    ensures Switched(s, resolves, settings, now) == s
    ensures s == IdleSession ==> TimeLeft(s, now) == 0.0
  {
  }

  // ---------------------------------------------------------------------------
  // Durations, overrides and switching.

  /** The session's duration is the one its kind gets from its overrides and
      the settings. */
  predicate DurationAgrees(s: Session, settings: Settings) {
    s.mode != Idle ==> s.duration == StartDuration(s.mode, s.overrides, settings)
  }

  /** A session starts with its full duration: the override of its kind when
      given, else the setting; it starts unpaused with no completed subtasks. */
  lemma StartedFresh(task: TaskRef, kind: Mode, overrides: Option<Overrides>, settings: Settings, now: int)
    requires kind != Idle && now != 0
    ensures var s := Started(task, kind, overrides, settings, now);
      DurationAgrees(s, settings) && s.mode == kind && s.overrides == overrides
      && s.completedSubtasks == [] && !IsSet(s.pausedTime)
      && TimeLeft(s, now) == Max0((StartDuration(kind, overrides, settings) * 60) as real)
  {
  }

  /** Every transition keeps the duration in step with the overrides, and
      applying overrides brings it in step whatever it was before. */
  lemma DurationAgreesPreserved(s: Session, settings: Settings, resolves: bool, now: int, work: int, shortBreak: int)
    ensures DurationAgrees(WithOverrides(s, work, shortBreak), settings)
    ensures DurationAgrees(Switched(s, resolves, settings, now), settings)
    ensures DurationAgrees(s, settings) ==>
              DurationAgrees(Paused(s, now), settings) && DurationAgrees(Resumed(s, now), settings)
              && DurationAgrees(Reset(s, now), settings)
  {
  }

  /** Applying overrides changes the duration of a running session to the
      override of its kind, keeps an idle one, and moves nothing else. */
  lemma OverridesLive(s: Session, work: int, shortBreak: int)
    ensures var t := WithOverrides(s, work, shortBreak);
      t.overrides == Some(Overrides(Some(work), Some(shortBreak)))
      && (s.mode == Work ==> t.duration == work)
      && (s.mode == Break ==> t.duration == shortBreak)
      && (s.mode == Idle ==> t.duration == s.duration)
      && t.(overrides := s.overrides, duration := s.duration) == s
  {
  }

  /** Switching twice, while the file resolves, returns to the original kind
      with the same duration, task binding and overrides. */
  lemma SwitchTwice(s: Session, settings: Settings, t1: int, t2: int)
    requires s.mode != Idle && DurationAgrees(s, settings)
    ensures var s2 := Switched(Switched(s, true, settings, t1), true, settings, t2);
      s2.mode == s.mode && s2.duration == s.duration && s2.overrides == s.overrides
      && s2.taskFile == s.taskFile && s2.taskLine == s.taskLine && s2.taskText == s.taskText
  {
    var s1 := Switched(s, true, settings, t1);
    assert s1.mode == Opposite(s.mode);
    assert Opposite(s1.mode) == s.mode;
  }

  /** Switching when the file is gone is exactly stopping. */
  lemma SwitchUnresolvedStops(s: Session, settings: Settings, now: int)
    requires s.mode != Idle
    ensures Switched(s, false, settings, now) == IdleSession
  {
  }

  // ---------------------------------------------------------------------------
  // Completing a session.

  /** A session has a start time exactly when it is not idle, and an idle one
      is not paused. */
  predicate Consistent(s: Session) {
    (s.mode != Idle <==> s.startTime.Some?) && (s.mode == Idle ==> !IsSet(s.pausedTime))
  }

  /** The idle record and every started session are consistent, and every
      transition keeps a consistent record consistent. */
  lemma ConsistentPreserved(s: Session, task: TaskRef, kind: Mode, overrides: Option<Overrides>,
                            settings: Settings, resolves: bool, now: int, work: int, shortBreak: int)
    requires kind != Idle
    ensures Consistent(IdleSession) && Consistent(Started(task, kind, overrides, settings, now))
    ensures Consistent(s) ==>
              && Consistent(Paused(s, now)) && Consistent(Resumed(s, now)) && Consistent(Reset(s, now))
              && Consistent(WithOverrides(s, work, shortBreak)) && Consistent(Switched(s, resolves, settings, now))
  {
  }

  /** What `logCompletion` does with the task's file: nothing when the file is
      gone, the stored line is past the end or no longer holds the task, a
      failure when the stored line is negative (the line read is `undefined`),
      and otherwise the new document. */
  datatype LogOutcome = NoWrite | Written(lines: seq<string>) | Threw

  function LogOutcomeOf(resolves: bool, doc: seq<string>, taskLine: int, taskText: string): (r: LogOutcome)
    ensures r.Written? ==> 0 <= taskLine < |doc| && r.lines == Counter.LogLines(doc, taskLine, taskText)
    ensures r.Written? <==> resolves && 0 <= taskLine && Counter.OnTaskLine(doc, taskLine, taskText)
    ensures r.Threw? <==> resolves && taskLine < 0
  {
    if !resolves then NoWrite
    else if taskLine < 0 then Threw
    else if Counter.OnTaskLine(doc, taskLine, taskText) then Written(Counter.LogLines(doc, taskLine, taskText))
    else NoWrite
  }

  /** The running totals of `plugin.stats`. */
  class Stats {
    var completedSessions: int
    var totalWorkDuration: int

    constructor ()
      ensures completedSessions == 0 && totalWorkDuration == 0
    {
      completedSessions := 0;
      totalWorkDuration := 0;
    }
  }

  /** The timer: the session record, whether its one-second interval is
      active, the plugin's settings and statistics. */
  class TimerService {
    var session: Session
    var ticking: bool
    var settings: Settings
    const stats: Stats

    /** The interval runs only for a session that is not paused, and the
        record is consistent. */
    ghost predicate Valid()
      reads this
    {
      (ticking ==> session.mode != Idle && !IsSet(session.pausedTime))
      && Consistent(session)
    }

    constructor (settings: Settings, stats: Stats)
      ensures Valid() && session == IdleSession && !ticking
      ensures this.settings == settings && this.stats == stats
    {
      session := IdleSession;
      ticking := false;
      this.settings := settings;
      this.stats := stats;
    }

    /** `startTick`: the interval runs unless the session is paused. */
    method StartTick()
      modifies this`ticking
      ensures ticking == !IsSet(session.pausedTime)
    {
      ticking := false;
      if IsSet(session.pausedTime) {
        return;
      }
      ticking := true;
    }

    method StartSession(task: TaskRef, kind: Mode, overrides: Option<Overrides>, now: int)
      requires kind != Idle
      modifies this`session, this`ticking
      ensures Valid() && ticking
      ensures session == Started(task, kind, overrides, settings, now)
    {
      session := Session(kind, Some(now), StartDuration(kind, overrides, settings),
                         Some(task.path + ":" + IntToString(task.line)), task.line, task.path, task.text,
                         [], None, overrides);
      StartTick();
    }

    method StopSession()
      modifies this`session, this`ticking
      ensures Valid() && !ticking
      ensures session == IdleSession
    {
      ticking := false;
      session := IdleSession;
    }

    method PauseSession(now: int)
      requires Valid()
      modifies this`session, this`ticking
      ensures Valid()
      ensures session == Paused(old(session), now)
      ensures !ticking
    {
      if session.mode != Idle && !IsSet(session.pausedTime) {
        session := session.(pausedTime := Some(now));
        ticking := false;
      }
    }

    method ResumeSession(now: int)
      requires Valid()
      modifies this`session, this`ticking
      ensures Valid()
      ensures session == Resumed(old(session), now)
      ensures ticking == (old(ticking) || session != old(session))
    {
      if session.mode != Idle && IsSet(session.pausedTime) && IsSet(session.startTime) {
        var pauseDuration := now - session.pausedTime.value;
        session := session.(startTime := Some(session.startTime.value + pauseDuration));
        session := session.(pausedTime := None);
        StartTick();
      }
    }

    method ApplyOverrides(work: int, shortBreak: int)
      requires Valid()
      modifies this`session
      ensures Valid()
      ensures session == WithOverrides(old(session), work, shortBreak)
    {
      session := session.(overrides := Some(Overrides(Some(work), Some(shortBreak))));
      if session.mode == Work {
        session := session.(duration := work);
      } else if session.mode == Break {
        session := session.(duration := shortBreak);
      }
    }

    method ResetSession(now: int)
      requires Valid()
      modifies this`session, this`ticking
      ensures Valid()
      ensures session == Reset(old(session), now)
      ensures ticking == (old(ticking) || old(session).mode != Idle)
    {
      if session.mode != Idle {
        session := session.(startTime := Some(now), pausedTime := None);
        StartTick();
      }
    }

    /** `switchMode`; `resolves` tells whether the session's file still exists. */
    method SwitchMode(resolves: bool, now: int)
      requires Valid()
      modifies this`session, this`ticking
      ensures Valid()
      ensures session == Switched(old(session), resolves, settings, now)
      ensures ticking == (if old(session).mode == Idle then old(ticking) else resolves)
    {
      if session.mode != Idle {
        var nextType := if session.mode == Work then Break else Work;
        if resolves {
          StartSession(TaskRef(session.taskFile, session.taskLine, session.taskText), nextType, session.overrides, now);
        } else {
          StopSession();
        }
      }
    }

    /** `getTimeLeft()` at time `now`. */
    method GetTimeLeft(now: int) returns (r: real)
      ensures r >= 0.0
      ensures r == TimeLeft(session, now)
    {
      if !IsSet(session.startTime) {
        return 0.0;
      }
      var stop := if IsSet(session.pausedTime) then session.pausedTime.value else now;
      var elapsedSec := (stop - session.startTime.value) as real / 1000.0;
      var totalSec := (session.duration * 60) as real;
      r := if totalSec - elapsedSec > 0.0 then totalSec - elapsedSec else 0.0;
    }

    /** The line update of `logCompletion`, on the document `doc` of the
        session's file (when `resolves`), done in place on its array of lines. */
    method LogCompletion(resolves: bool, doc: seq<string>) returns (outcome: LogOutcome)
      ensures outcome == LogOutcomeOf(resolves, doc, session.taskLine, session.taskText)
    {
      if !resolves {
        return NoWrite;
      }
      var lineIdx := session.taskLine;
      if lineIdx < 0 {
        return Threw;
      }
      var lines := new string[|doc|](i requires 0 <= i < |doc| => doc[i]);
      assert lines[..] == doc;
      var logged := Counter.LogInPlace(lines, lineIdx, session.taskText);
      outcome := if logged then Written(lines[..]) else NoWrite;
    }

    /** `completeSession`: a finished work session is logged to its task line
        and counted in the statistics; any finished session then stops.  When
        logging fails, nothing after it happens. */
    method CompleteSession(resolves: bool, doc: seq<string>) returns (outcome: LogOutcome)
      requires Valid()
      modifies this`session, this`ticking, stats
      ensures Valid() && !ticking
      ensures outcome == if old(session).mode == Work
                         then LogOutcomeOf(resolves, doc, old(session).taskLine, old(session).taskText)
                         else NoWrite
      ensures outcome.Threw? ==> session == old(session) && unchanged(stats)
      ensures !outcome.Threw? ==> session == IdleSession
      ensures !outcome.Threw? && old(session).mode == Work ==>
                stats.completedSessions == old(stats.completedSessions) + 1
                && stats.totalWorkDuration == old(stats.totalWorkDuration) + old(session).duration
      ensures old(session).mode != Work ==> unchanged(stats)
    {
      ticking := false;
      if session.mode == Work {
        outcome := LogCompletion(resolves, doc);
        if outcome.Threw? {
          return;
        }
        stats.completedSessions := stats.completedSessions + 1;
        stats.totalWorkDuration := stats.totalWorkDuration + session.duration;
        StopSession();
      } else {
        outcome := NoWrite;
        StopSession();
      }
    }

    /** One firing of the interval at time `now`: when the time is up, the
        session completes.  Returns the completion's outcome, if any. */
    method Tick(now: int, resolves: bool, doc: seq<string>) returns (completed: Option<LogOutcome>)
      requires Valid()
      modifies this`session, this`ticking, stats
      ensures Valid()
      ensures completed.Some? <==> old(ticking) && TimeLeft(old(session), now) == 0.0
      ensures completed.None? ==> session == old(session) && ticking == old(ticking) && unchanged(stats)
      ensures completed.Some? ==> !ticking
      ensures completed.Some? ==>
                completed.value == if old(session).mode == Work
                                   then LogOutcomeOf(resolves, doc, old(session).taskLine, old(session).taskText)
                                   else NoWrite
      ensures completed.Some? && completed.value.Threw? ==> session == old(session) && unchanged(stats)
      ensures completed.Some? && !completed.value.Threw? ==> session == IdleSession
      ensures completed.Some? && !completed.value.Threw? && old(session).mode == Work ==>
                stats.completedSessions == old(stats.completedSessions) + 1
                && stats.totalWorkDuration == old(stats.totalWorkDuration) + old(session).duration
      ensures old(session).mode != Work ==> unchanged(stats)
    {
      if !ticking {
        return None;
      }
      var timeLeft := GetTimeLeft(now);
      if timeLeft <= 0.0 {
        var outcome := CompleteSession(resolves, doc);
        return Some(outcome);
      }
      return None;
    }
  }
}

=== FILE: view.dfy ===
/** The line scans of the Pomodoro view: the list of tagged open tasks, the
    re-anchoring of the session's task line, the scan of the subtasks below
    it, the slot-limited choice of subtasks to show, and the ticking or
    unticking of one subtask. */
module View {
  import opened Text
  import Counter
  import Timer

  // ---------------------------------------------------------------------------
  // Task lines.

  /** `^\s*[-*] \[ \]`: the end of the match at the start of `line`. */
  function OpenBoxEnd(line: string): (r: Option<nat>)
    ensures r.Some? ==> 5 <= r.value <= |line|
    ensures r.Some? ==> line[r.value - 3] == '[' && line[r.value - 2] == ' ' && line[r.value - 1] == ']'
  {
    var a := Counter.SkipSpaces(line, 0);
    if a + 5 <= |line| && (line[a] == '-' || line[a] == '*') && line[a + 1] == ' '
       && line[a + 2] == '[' && line[a + 3] == ' ' && line[a + 4] == ']'
    then Some(a + 5) else None
  }

  /** `^\s*[-*] \[x\]` with the `i` flag: the end of the match at the start of `line`. */
  function DoneBoxEnd(line: string): (r: Option<nat>)
    ensures r.Some? ==> 5 <= r.value <= |line| && line[r.value - 3] == '[' && line[r.value - 1] == ']'
    ensures r.Some? ==> line[r.value - 2] == 'x' || line[r.value - 2] == 'X'
  {
    var a := Counter.SkipSpaces(line, 0);
    if a + 5 <= |line| && (line[a] == '-' || line[a] == '*') && line[a + 1] == ' '
       && line[a + 2] == '[' && (line[a + 3] == 'x' || line[a + 3] == 'X') && line[a + 4] == ']'
    then Some(a + 5) else None
  }

  /** `^\s*[-*] \[?\]` matches `line` up to `e`, with one of `marks` inside
      the brackets. */
  predicate ItemShape(line: string, e: nat, marks: string) {
    && 5 <= e <= |line|
    && (forall k :: 0 <= k < e - 5 ==> Counter.SpaceAt(line, k))
    && (line[e - 5] == '-' || line[e - 5] == '*') && line[e - 4] == ' '
    && line[e - 3] == '[' && line[e - 2] in marks && line[e - 1] == ']'
  }

  /** An open task line is found exactly when `^\s*[-*] \[ \]` matches. */
  lemma OpenBoxEndIff(line: string)
    ensures OpenBoxEnd(line).Some? ==> ItemShape(line, OpenBoxEnd(line).value, " ")
    ensures forall e: nat :: ItemShape(line, e, " ") ==> OpenBoxEnd(line) == Some(e)
  {
    forall e: nat | ItemShape(line, e, " ") ensures OpenBoxEnd(line) == Some(e) {
      assert !Counter.SpaceAt(line, e - 5);
      Counter.SkipSpacesExact(line, 0, e - 5);
    }
  }

  /** A completed task line is found exactly when `^\s*[-*] \[x\]` matches,
      in either case. */
  lemma DoneBoxEndIff(line: string)
    ensures DoneBoxEnd(line).Some? ==> ItemShape(line, DoneBoxEnd(line).value, "xX")
    ensures forall e: nat :: ItemShape(line, e, "xX") ==> DoneBoxEnd(line) == Some(e)
  {
    forall e: nat | ItemShape(line, e, "xX") ensures DoneBoxEnd(line) == Some(e) {
      assert !Counter.SpaceAt(line, e - 5);
      Counter.SkipSpacesExact(line, 0, e - 5);
    }
  }

  /** A list item `- [ ] ` is an open task line and `- [x] ` a completed one,
      whatever follows. */
  lemma ListItemsAreTasks(rest: string)
    ensures IsTaskLine("- [ ] " + rest) && IsCompletedLine("- [x] " + rest)
  {
    assert ItemShape("- [ ] " + rest, 5, " ") && ItemShape("- [x] " + rest, 5, "xX");
    OpenBoxEndIff("- [ ] " + rest);
    DoneBoxEndIff("- [x] " + rest);
  }

  predicate IsTaskLine(line: string) {
    OpenBoxEnd(line).Some?
  }

  predicate IsCompletedLine(line: string) {
    DoneBoxEnd(line).Some?
  }

  /** No line is both an open and a completed task. */
  lemma OpenOrDone(line: string)
    ensures !(IsTaskLine(line) && IsCompletedLine(line))
  {
    if IsTaskLine(line) {
      var a := Counter.SkipSpaces(line, 0);
      assert line[a + 3] == ' ';
    }
  }

  // ---------------------------------------------------------------------------
  // The tagged-task list.

  datatype TaskItem = TaskItem(line: nat, text: string)

  /** An open task line carrying the tag. */
  predicate Tagged(line: string, tag: string) {
    IsTaskLine(line) && Contains(line, tag)
  }

  /** The text shown for a task: the line without its checkbox prefix and
      without the first occurrence of the tag, trimmed. */
  function TaskText(line: string, tag: string): string
    requires IsTaskLine(line)
  {
    Trim(ReplaceFirst(line[OpenBoxEnd(line).value..], tag, ""))
  }

  /** The tagged tasks among the first `n` lines, in file order. */
  function TasksIn(lines: seq<string>, tag: string, n: nat): seq<TaskItem>
    requires n <= |lines|
  {
    if n == 0 then []
    else
      var before := TasksIn(lines, tag, n - 1);
      if Tagged(lines[n - 1], tag) then before + [TaskItem(n - 1, TaskText(lines[n - 1], tag))] else before
  }

  /** One more line extends the list by that line's task when it is tagged. */
  lemma TasksInNext(lines: seq<string>, tag: string, n: nat)
    requires n < |lines|
    ensures Tagged(lines[n], tag) ==> TasksIn(lines, tag, n + 1) == TasksIn(lines, tag, n) + [TaskItem(n, TaskText(lines[n], tag))]
    ensures !Tagged(lines[n], tag) ==> TasksIn(lines, tag, n + 1) == TasksIn(lines, tag, n)
  {
  }

  /** Every listed task is a tagged open task line among the first `n`, shown
      with its text. */
  lemma {:induction false} TasksInSound(lines: seq<string>, tag: string, n: nat)
    requires n <= |lines|
    ensures forall k :: 0 <= k < |TasksIn(lines, tag, n)| ==> ListedTask(lines, tag, n, TasksIn(lines, tag, n)[k])
  {
    if n > 0 {
      TasksInSound(lines, tag, n - 1);
      TasksInStep(lines, tag, n - 1, n);
    }
  }

  lemma TasksInStep(lines: seq<string>, tag: string, m: nat, n: nat)
    requires n == m + 1 <= |lines|
    requires forall k :: 0 <= k < |TasksIn(lines, tag, m)| ==> ListedTask(lines, tag, m, TasksIn(lines, tag, m)[k])
    ensures forall k :: 0 <= k < |TasksIn(lines, tag, n)| ==> ListedTask(lines, tag, n, TasksIn(lines, tag, n)[k])
  {
    var before := TasksIn(lines, tag, m);
    var r := TasksIn(lines, tag, n);
    assert r == before || r == before + [TaskItem(m, TaskText(lines[m], tag))];
    forall k | 0 <= k < |r| ensures ListedTask(lines, tag, n, r[k]) {
      if k < |before| {
        assert r[k] == before[k];
        assert ListedTask(lines, tag, m, before[k]);
      }
    }
  }

  /** The lines of `items` are below `n` and strictly increasing. */
  predicate InFileOrder(items: seq<TaskItem>, n: nat) {
    (forall k :: 0 <= k < |items| ==> items[k].line < n)
    && forall k, m :: 0 <= k < m < |items| ==> items[k].line < items[m].line
  }

  lemma AppendInOrder(items: seq<TaskItem>, t: TaskItem, n: nat)
    requires InFileOrder(items, t.line) && t.line < n
    ensures InFileOrder(items + [t], n)
  {
  }

  /** The task list follows the file order. */
  lemma {:induction false} TasksInOrdered(lines: seq<string>, tag: string, n: nat)
    requires n <= |lines|
    ensures InFileOrder(TasksIn(lines, tag, n), n)
  {
    if n > 0 {
      TasksInOrdered(lines, tag, n - 1);
      TasksInOrderedStep(lines, tag, n - 1, n);
    }
  }

  lemma InFileOrderWiden(items: seq<TaskItem>, m: nat, n: nat)
    requires InFileOrder(items, m) && m <= n
    ensures InFileOrder(items, n)
  {
  }

  lemma TasksInOrderedStep(lines: seq<string>, tag: string, m: nat, n: nat)
    requires n == m + 1 <= |lines| && InFileOrder(TasksIn(lines, tag, m), m)
    ensures InFileOrder(TasksIn(lines, tag, n), n)
  {
    TasksInNext(lines, tag, m);
    if Tagged(lines[m], tag) {
      AppendInOrder(TasksIn(lines, tag, m), TaskItem(m, TaskText(lines[m], tag)), n);
    } else {
      InFileOrderWiden(TasksIn(lines, tag, m), m, n);
    }
  }

  /** `t` is a tagged open task line among the first `n`, with the text shown for it. */
  predicate ListedTask(lines: seq<string>, tag: string, n: nat, t: TaskItem)
    requires n <= |lines|
  {
    t.line < n && Tagged(lines[t.line], tag) && t.text == TaskText(lines[t.line], tag)
  }

  /** Every tagged open task line among the first `n` is listed. */
  lemma {:induction false} TasksInComplete(lines: seq<string>, tag: string, n: nat, i: nat)
    requires i < n <= |lines| && Tagged(lines[i], tag)
    ensures exists k :: 0 <= k < |TasksIn(lines, tag, n)| && TasksIn(lines, tag, n)[k].line == i
    decreases n
  {
    if i < n - 1 {
      TasksInComplete(lines, tag, n - 1, i);
    }
    TasksInCompleteStep(lines, tag, n - 1, n, i);
  }

  lemma TasksInCompleteStep(lines: seq<string>, tag: string, m: nat, n: nat, i: nat)
    requires n == m + 1 <= |lines| && i <= m && Tagged(lines[i], tag)
    requires i < m ==> exists k :: 0 <= k < |TasksIn(lines, tag, m)| && TasksIn(lines, tag, m)[k].line == i
    ensures exists k :: 0 <= k < |TasksIn(lines, tag, n)| && TasksIn(lines, tag, n)[k].line == i
  {
    var before := TasksIn(lines, tag, m);
    var r := TasksIn(lines, tag, n);
    TasksInGrows(lines, tag, m);
    if i == m {
      assert r[|before|].line == i;
    } else {
      var k :| 0 <= k < |before| && before[k].line == i;
      assert r[k] == r[..|before|][k];
    }
  }

  /** One more line keeps the list so far as a prefix and adds at most that
      line's task, at the end. */
  lemma TasksInGrows(lines: seq<string>, tag: string, m: nat)
    requires m < |lines|
    ensures |TasksIn(lines, tag, m)| <= |TasksIn(lines, tag, m + 1)|
    ensures TasksIn(lines, tag, m + 1)[..|TasksIn(lines, tag, m)|] == TasksIn(lines, tag, m)
    ensures Tagged(lines[m], tag) ==> |TasksIn(lines, tag, m + 1)| == |TasksIn(lines, tag, m)| + 1
                                      && TasksIn(lines, tag, m + 1)[|TasksIn(lines, tag, m)|].line == m
  {
    TasksInNext(lines, tag, m);
  }

  /** The `forEach` callback of the scan: the line at `index` adds its task
      when it is a tagged open task line. */
  method VisitLine(lines: seq<string>, tag: string, index: nat, tasks: seq<TaskItem>) returns (r: seq<TaskItem>)
    requires index < |lines| && tasks == TasksIn(lines, tag, index)
    ensures r == TasksIn(lines, tag, index + 1)
  {
    var line := lines[index];
    TasksInNext(lines, tag, index);
    if IsTaskLine(line) && Contains(line, tag) {
      r := tasks + [TaskItem(index, TaskText(line, tag))];
    } else {
      r := tasks;
    }
  }

  /** The scan of `renderTaskList` over the document's lines, with the tag
      taken from the settings and trimmed. */
  method FindTasks(lines: seq<string>, settingsTag: string) returns (tasks: seq<TaskItem>)
    ensures tasks == TasksIn(lines, Trim(settingsTag), |lines|)
  {
    var tag := Trim(settingsTag);
    tasks := [];
    var index := 0;
    while index < |lines|
      invariant 0 <= index <= |lines|
      invariant tasks == TasksIn(lines, tag, index)
    {
      tasks := VisitLine(lines, tag, index, tasks);
      index := index + 1;
    }
  }

  // ---------------------------------------------------------------------------
  // Re-anchoring the session's task line.

  /** `line` contains the cut `key` of the task's text and the tag. */
  predicate CarriesTask(line: string, key: Cut, tag: string) {
    Includes(line, key) && Contains(line, tag)
  }

  /** The first line at or after `i` containing both `key` and `tag`. */
  function FirstWith(lines: seq<string>, key: Cut, tag: string, i: nat): (r: Option<nat>)
    decreases |lines| - i
    ensures r.Some? ==> i <= r.value < |lines| && CarriesTask(lines[r.value], key, tag)
    ensures forall j :: i <= j < |lines| && (r.None? || j < r.value) ==> !CarriesTask(lines[j], key, tag)
  {
    if i >= |lines| then None
    else if Includes(lines[i], key) && Contains(lines[i], tag) then Some(i)
    else FirstWith(lines, key, tag, i + 1)
  }

  /** The session's task line as the view finds it again: the stored line
      while it still contains the first 15 UTF-16 code units of the task's
      text; else the first line containing them and the tag; else, when no
      line does, the stored line. */
  function Anchor(lines: seq<string>, taskLine: nat, taskText: string, tag: string): (r: nat)
    ensures taskLine < |lines| && Includes(lines[taskLine], Prefix(taskText, 15)) ==> r == taskLine
    ensures !(taskLine < |lines| && Includes(lines[taskLine], Prefix(taskText, 15)))
            && (exists i :: 0 <= i < |lines| && CarriesTask(lines[i], Prefix(taskText, 15), tag)) ==>
              r < |lines| && CarriesTask(lines[r], Prefix(taskText, 15), tag)
              && forall j :: 0 <= j < r ==> !CarriesTask(lines[j], Prefix(taskText, 15), tag)
    ensures !(taskLine < |lines| && Includes(lines[taskLine], Prefix(taskText, 15)))
            && !(exists i :: 0 <= i < |lines| && CarriesTask(lines[i], Prefix(taskText, 15), tag)) ==>
              r == taskLine
  {
    var key := Prefix(taskText, 15);
    if taskLine < |lines| && Includes(lines[taskLine], key) then taskLine
    else
      match FirstWith(lines, key, tag, 0)
      case Some(i) => i
      case None => taskLine
  }

  /** Step 1 of `renderSubtasks`. */
  method Reanchor(lines: seq<string>, taskLine: nat, taskText: string, tag: string) returns (currentTaskLine: nat)
    ensures currentTaskLine == Anchor(lines, taskLine, taskText, tag)
  {
    currentTaskLine := taskLine;
    var cleanTaskText := Prefix(taskText, 15);
    if currentTaskLine >= |lines| || !Includes(lines[currentTaskLine], cleanTaskText) {
      var i := 0;
      while i < |lines|
        invariant 0 <= i <= |lines|
        invariant FirstWith(lines, cleanTaskText, tag, 0) == FirstWith(lines, cleanTaskText, tag, i)
      {
        if Includes(lines[i], cleanTaskText) && Contains(lines[i], tag) {
          currentTaskLine := i;
          break;
        }
        i := i + 1;
      }
    }
  }

  // ---------------------------------------------------------------------------
  // Scanning the subtasks below the task line.

  datatype SubtaskItem = SubtaskItem(line: nat, text: string, completed: bool, isSession: bool, isToday: bool)

  /** A task line, open or completed, carrying the tag: the next tagged task,
      where the subtasks of the current one end. */
  predicate StopsScan(line: string, tag: string) {
    (IsTaskLine(line) || IsCompletedLine(line)) && Contains(line, tag)
  }

  /** The index where the scan that starts at `i` stops: the first line that
      stops it, or the end of the document. */
  function ScanEnd(lines: seq<string>, i: nat, tag: string): (r: nat)
    requires i <= |lines|
    decreases |lines| - i
    ensures i <= r <= |lines|
  {
    if i == |lines| || StopsScan(lines[i], tag) then i else ScanEnd(lines, i + 1, tag)
  }

  /** The scan from `i` stops at the first line that stops it, or at the end
      of the document when none does. */
  lemma {:induction false} ScanEndFirstStop(lines: seq<string>, i: nat, tag: string)
    requires i <= |lines|
    ensures forall j :: i <= j < ScanEnd(lines, i, tag) ==> !StopsScan(lines[j], tag)
    ensures ScanEnd(lines, i, tag) < |lines| ==> StopsScan(lines[ScanEnd(lines, i, tag)], tag)
    decreases |lines| - i
  {
    if i < |lines| && !StopsScan(lines[i], tag) {
      ScanEndFirstStop(lines, i + 1, tag);
    }
  }

  /** `completedSubtasks.some(stored => text.includes(stored))`. */
  predicate InSession(text: string, stored: seq<string>) {
    exists k :: 0 <= k < |stored| && Contains(text, stored[k])
  }

  function OpenItem(lines: seq<string>, i: nat): SubtaskItem
    requires i < |lines| && IsTaskLine(lines[i])
  {
    SubtaskItem(i, Trim(lines[i][OpenBoxEnd(lines[i]).value..]), false, false, false)
  }

  /** A completed subtask: it belongs to the session when its text contains a
      text ticked during the session, and counts as today's when it does or its
      line mentions today's date. */
  function DoneItem(lines: seq<string>, i: nat, stored: seq<string>, today: string): SubtaskItem
    requires i < |lines| && IsCompletedLine(lines[i])
  {
    var text := Trim(lines[i][DoneBoxEnd(lines[i]).value..]);
    var isSession := InSession(text, stored);
    SubtaskItem(i, text, true, isSession, isSession || Contains(lines[i], today))
  }

  /** The open subtasks among lines `lo` to `hi`, in file order (their lines
      strictly increase). */
  function OpenBetween(lines: seq<string>, lo: nat, hi: nat): (r: seq<SubtaskItem>)
    requires lo <= hi <= |lines|
    decreases hi
    ensures forall k :: 0 <= k < |r| ==> lo <= r[k].line < hi && IsTaskLine(lines[r[k].line])
  {
    if hi == lo then []
    else
      var before := OpenBetween(lines, lo, hi - 1);
      if IsTaskLine(lines[hi - 1]) then before + [OpenItem(lines, hi - 1)] else before
  }

  /** The completed subtasks among lines `lo` to `hi`, in file order (their
      lines strictly increase). */
  function DoneBetween(lines: seq<string>, lo: nat, hi: nat, stored: seq<string>, today: string): (r: seq<SubtaskItem>)
    requires lo <= hi <= |lines|
    decreases hi
    ensures forall k :: 0 <= k < |r| ==> lo <= r[k].line < hi && IsCompletedLine(lines[r[k].line])
  {
    if hi == lo then []
    else
      var before := DoneBetween(lines, lo, hi - 1, stored, today);
      if IsCompletedLine(lines[hi - 1])
      then before + [DoneItem(lines, hi - 1, stored, today)] else before
  }

  datatype Candidates = Candidates(open: seq<SubtaskItem>, done: seq<SubtaskItem>)

  /** Step 2 of `renderSubtasks`: the subtasks from the line after the anchor
      up to the next tagged task. */
  function Subtasks(lines: seq<string>, anchor: nat, tag: string, stored: seq<string>, today: string): Candidates {
    var lo := if anchor + 1 <= |lines| then anchor + 1 else |lines|;
    var hi := ScanEnd(lines, lo, tag);
    Candidates(OpenBetween(lines, lo, hi), DoneBetween(lines, lo, hi, stored, today))
  }

  /** One line of the scan below the task line: a tagged task line, open or
      completed, stops the scan; otherwise an open or a completed task line
      joins its candidates. */
  method VisitSubtaskLine(lines: seq<string>, lo: nat, i: nat, tag: string, stored: seq<string>, today: string,
                          unchecked: seq<SubtaskItem>, checked: seq<SubtaskItem>)
    returns (stop: bool, open: seq<SubtaskItem>, done: seq<SubtaskItem>)
    requires lo <= i < |lines|
    requires unchecked == OpenBetween(lines, lo, i) && checked == DoneBetween(lines, lo, i, stored, today)
    ensures stop == StopsScan(lines[i], tag)
    ensures stop ==> ScanEnd(lines, i, tag) == i
    ensures !stop ==> ScanEnd(lines, i + 1, tag) == ScanEnd(lines, i, tag)
    ensures !stop ==> open == OpenBetween(lines, lo, i + 1) && done == DoneBetween(lines, lo, i + 1, stored, today)
  {
    var line := lines[i];
    var isTaskLine := IsTaskLine(line);
    var isCompletedLine := IsCompletedLine(line);
    OpenOrDone(line);
    open, done := unchecked, checked;
    if (isTaskLine || isCompletedLine) && Contains(line, tag) {
      return true, open, done;
    }
    stop := false;
    if isTaskLine {
      open := unchecked + [OpenItem(lines, i)];
    } else if isCompletedLine {
      done := checked + [DoneItem(lines, i, stored, today)];
    }
  }

  /** Step 2 of `renderSubtasks`: the loop over the lines below the task line. */
  method ScanSubtasks(lines: seq<string>, anchor: nat, tag: string, stored: seq<string>, today: string)
    returns (c: Candidates)
    ensures c == Subtasks(lines, anchor, tag, stored, today)
  {
    var lo := if anchor + 1 <= |lines| then anchor + 1 else |lines|;
    var unchecked: seq<SubtaskItem> := [];
    var checked: seq<SubtaskItem> := [];
    var i := lo;
    while i < |lines|
      invariant lo <= i <= |lines|
      invariant unchecked == OpenBetween(lines, lo, i)
      invariant checked == DoneBetween(lines, lo, i, stored, today)
      invariant ScanEnd(lines, i, tag) == ScanEnd(lines, lo, tag)
    {
      var stop, open, done := VisitSubtaskLine(lines, lo, i, tag, stored, today, unchecked, checked);
      if stop {
        break;
      }
      unchecked, checked := open, done;
      i := i + 1;
    }
    c := Candidates(unchecked, checked);
  }

  /** Every open task line between the anchor and the next tagged task is an
      open candidate, in file order, and the same for completed ones. */
  lemma {:induction false} OpenBetweenComplete(lines: seq<string>, lo: nat, hi: nat, i: nat)
    requires lo <= i < hi <= |lines| && IsTaskLine(lines[i])
    ensures exists k :: 0 <= k < |OpenBetween(lines, lo, hi)| && OpenBetween(lines, lo, hi)[k].line == i
    decreases hi
  {
    if i < hi - 1 {
      OpenBetweenComplete(lines, lo, hi - 1, i);
    }
    OpenBetweenStep(lines, lo, hi - 1, hi, i);
  }

  lemma OpenBetweenStep(lines: seq<string>, lo: nat, m: nat, hi: nat, i: nat)
    requires lo <= i <= m && hi == m + 1 <= |lines| && IsTaskLine(lines[i])
    requires i < m ==> exists k :: 0 <= k < |OpenBetween(lines, lo, m)| && OpenBetween(lines, lo, m)[k].line == i
    ensures exists k :: 0 <= k < |OpenBetween(lines, lo, hi)| && OpenBetween(lines, lo, hi)[k].line == i
  {
    var before := OpenBetween(lines, lo, m);
    var r := OpenBetween(lines, lo, hi);
    OpenBetweenGrows(lines, lo, m);
    if i == m {
      assert r[|before|].line == i;
    } else {
      var k :| 0 <= k < |before| && before[k].line == i;
      assert r[k] == r[..|before|][k];
    }
  }

  lemma {:induction false} DoneBetweenComplete(lines: seq<string>, lo: nat, hi: nat, stored: seq<string>, today: string, i: nat)
    requires lo <= i < hi <= |lines| && IsCompletedLine(lines[i])
    ensures exists k :: 0 <= k < |DoneBetween(lines, lo, hi, stored, today)|
                        && DoneBetween(lines, lo, hi, stored, today)[k].line == i
    decreases hi
  {
    if i < hi - 1 {
      DoneBetweenComplete(lines, lo, hi - 1, stored, today, i);
    }
    DoneBetweenStep(lines, lo, hi - 1, hi, stored, today, i);
  }

  lemma DoneBetweenStep(lines: seq<string>, lo: nat, m: nat, hi: nat, stored: seq<string>, today: string, i: nat)
    requires lo <= i <= m && hi == m + 1 <= |lines| && IsCompletedLine(lines[i])
    requires i < m ==> exists k :: 0 <= k < |DoneBetween(lines, lo, m, stored, today)|
                                   && DoneBetween(lines, lo, m, stored, today)[k].line == i
    ensures exists k :: 0 <= k < |DoneBetween(lines, lo, hi, stored, today)|
                        && DoneBetween(lines, lo, hi, stored, today)[k].line == i
  {
    var before := DoneBetween(lines, lo, m, stored, today);
    var r := DoneBetween(lines, lo, hi, stored, today);
    DoneBetweenGrows(lines, lo, m, stored, today);
    if i == m {
      assert r[|before|].line == i;
    } else {
      var k :| 0 <= k < |before| && before[k].line == i;
      assert r[k] == r[..|before|][k];
    }
  }

  /** The lines of `items` strictly increase. */
  predicate LinesIncrease(items: seq<SubtaskItem>) {
    forall k, m :: 0 <= k < m < |items| ==> items[k].line < items[m].line
  }

  /** Both candidate lists follow the file order. */
  lemma CandidatesInFileOrder(lines: seq<string>, lo: nat, hi: nat, stored: seq<string>, today: string)
    requires lo <= hi <= |lines|
    ensures LinesIncrease(OpenBetween(lines, lo, hi))
    ensures LinesIncrease(DoneBetween(lines, lo, hi, stored, today))
  {
    OpenInFileOrder(lines, lo, hi);
    DoneInFileOrder(lines, lo, hi, stored, today);
  }

  lemma {:induction false} OpenInFileOrder(lines: seq<string>, lo: nat, hi: nat)
    requires lo <= hi <= |lines|
    ensures LinesIncrease(OpenBetween(lines, lo, hi))
    decreases hi
  {
    if lo < hi {
      OpenInFileOrder(lines, lo, hi - 1);
      OpenOrderStep(lines, lo, hi - 1, hi);
    }
  }

  lemma {:induction false} DoneInFileOrder(lines: seq<string>, lo: nat, hi: nat, stored: seq<string>, today: string)
    requires lo <= hi <= |lines|
    ensures LinesIncrease(DoneBetween(lines, lo, hi, stored, today))
    decreases hi
  {
    if lo < hi {
      DoneInFileOrder(lines, lo, hi - 1, stored, today);
      DoneOrderStep(lines, lo, hi - 1, hi, stored, today);
    }
  }

  lemma OpenOrderStep(lines: seq<string>, lo: nat, m: nat, hi: nat)
    requires lo <= m && hi == m + 1 <= |lines| && LinesIncrease(OpenBetween(lines, lo, m))
    ensures LinesIncrease(OpenBetween(lines, lo, hi))
  {
    OpenBetweenGrows(lines, lo, m);
    AppendIncreases(OpenBetween(lines, lo, m), OpenBetween(lines, lo, hi), m);
  }

  lemma DoneOrderStep(lines: seq<string>, lo: nat, m: nat, hi: nat, stored: seq<string>, today: string)
    requires lo <= m && hi == m + 1 <= |lines| && LinesIncrease(DoneBetween(lines, lo, m, stored, today))
    ensures LinesIncrease(DoneBetween(lines, lo, hi, stored, today))
  {
    DoneBetweenGrows(lines, lo, m, stored, today);
    AppendIncreases(DoneBetween(lines, lo, m, stored, today), DoneBetween(lines, lo, hi, stored, today), m);
  }

  /** One more line keeps the candidates so far and adds at most that line,
      at the end. */
  lemma OpenBetweenGrows(lines: seq<string>, lo: nat, m: nat)
    requires lo <= m < |lines|
    ensures var before, after := OpenBetween(lines, lo, m), OpenBetween(lines, lo, m + 1);
            |before| <= |after| && after[..|before|] == before
            && (IsTaskLine(lines[m]) ==> |after| == |before| + 1 && after[|before|].line == m)
            && (!IsTaskLine(lines[m]) ==> after == before)
  {
    var before, after := OpenBetween(lines, lo, m), OpenBetween(lines, lo, m + 1);
    if IsTaskLine(lines[m]) {
      assert after == before + [OpenItem(lines, m)];
      assert after[..|before|] == before;
    }
  }

  lemma DoneBetweenGrows(lines: seq<string>, lo: nat, m: nat, stored: seq<string>, today: string)
    requires lo <= m < |lines|
    ensures var before, after := DoneBetween(lines, lo, m, stored, today), DoneBetween(lines, lo, m + 1, stored, today);
            |before| <= |after| && after[..|before|] == before
            && (IsCompletedLine(lines[m]) ==> |after| == |before| + 1 && after[|before|].line == m)
            && (!IsCompletedLine(lines[m]) ==> after == before)
  {
    var before, after := DoneBetween(lines, lo, m, stored, today), DoneBetween(lines, lo, m + 1, stored, today);
    if IsCompletedLine(lines[m]) {
      assert after == before + [DoneItem(lines, m, stored, today)];
      assert after[..|before|] == before;
    }
  }

  /** A list whose lines increase and lie below `n`, extended by at most one
      item on line `n`, still increases. */
  lemma AppendIncreases(before: seq<SubtaskItem>, after: seq<SubtaskItem>, n: nat)
    requires LinesIncrease(before) && forall k :: 0 <= k < |before| ==> before[k].line < n
    requires after == before || (|after| == |before| + 1 && after[..|before|] == before && after[|before|].line == n)
    ensures LinesIncrease(after)
  {
    if after != before {
      forall k, m | 0 <= k < m < |after| ensures after[k].line < after[m].line {
        assert after[k] == before[k];
        if m < |before| {
          assert after[m] == before[m];
        }
      }
    }
  }

  /** The subtasks found lie strictly between the anchor and the next tagged
      task, and no tagged task lies between the anchor and any of them. */
  lemma SubtasksBelongToTask(lines: seq<string>, anchor: nat, tag: string, stored: seq<string>, today: string)
    ensures var c := Subtasks(lines, anchor, tag, stored, today);
      forall x :: x in c.open + c.done ==>
        anchor < x.line < |lines| && forall j :: anchor < j <= x.line ==> !StopsScan(lines[j], tag)
  {
    var lo := if anchor + 1 <= |lines| then anchor + 1 else |lines|;
    var hi := ScanEnd(lines, lo, tag);
    ScanEndFirstStop(lines, lo, tag);
    var c := Subtasks(lines, anchor, tag, stored, today);
    forall x | x in c.open + c.done
      ensures anchor < x.line < |lines| && forall j :: anchor < j <= x.line ==> !StopsScan(lines[j], tag)
    {
      if x in c.open {
        var k :| 0 <= k < |c.open| && c.open[k] == x;
        assert lo <= x.line < hi;
      } else {
        var k :| 0 <= k < |c.done| && c.done[k] == x;
        assert lo <= x.line < hi;
      }
    }
  }

  // ---------------------------------------------------------------------------
  // Choosing the subtasks to show.

  /** The number of open subtasks taken from `n` with `slots` slots. */
  function Taken(n: nat, slots: int): (k: nat)
    ensures k <= n && (slots <= 0 ==> k == 0)
    ensures 0 < slots ==> k == if slots < n then slots else n
  {
    if slots <= 0 then 0 else if slots < n then slots else n
  }

  /** A completed subtask is shown when completed ones are or it was ticked
      in this session. */
  predicate Shown(x: SubtaskItem, showCompleted: bool) {
    showCompleted || x.isSession
  }

  /** A shown completed subtask takes no slot when it was ticked in this
      session, or when it is today's and today's ones bypass the limit. */
  predicate Bypasses(x: SubtaskItem, showToday: bool) {
    (showToday && x.isToday) || x.isSession
  }

  /** The number of items that take a slot. */
  function SlotUsers(xs: seq<SubtaskItem>, showToday: bool): nat {
    if xs == [] then 0 else (if Bypasses(xs[0], showToday) then 0 else 1) + SlotUsers(xs[1..], showToday)
  }

  /** The completed subtasks shown with `slots` slots left, in order: each
      shown one that bypasses the limit, and the others while slots remain. */
  function PickDone(done: seq<SubtaskItem>, slots: int, showCompleted: bool, showToday: bool): seq<SubtaskItem> {
    if done == [] then []
    else
      var x := done[0];
      if Shown(x, showCompleted) then
        if Bypasses(x, showToday) then [x] + PickDone(done[1..], slots, showCompleted, showToday)
        else if slots > 0 then [x] + PickDone(done[1..], slots - 1, showCompleted, showToday)
        else PickDone(done[1..], slots, showCompleted, showToday)
      else
        PickDone(done[1..], slots, showCompleted, showToday)
  }

  /** Step 3 of `renderSubtasks`: open subtasks first while slots remain
      (`subtaskCount` of them, or 9999 without a limit), then the completed
      ones `PickDone` lets through with the slots left. */
  function Selection(c: Candidates, settings: Timer.Settings): seq<SubtaskItem> {
    var slots := if settings.enableSubtaskLimit then settings.subtaskCount else 9999;
    var k := Taken(|c.open|, slots);
    c.open[..k] + PickDone(c.done, slots - k, settings.showCompletedSubtasks, settings.showCompletedToday)
  }

  /** The selection starts with the first open subtasks; an open one is left
      out only when every slot is taken.  The subtasks that take a slot are
      never more than the slots; every completed one shown is allowed to be;
      every shown one that bypasses the limit is shown; and a shown one is
      left out only when every slot is taken. */
  lemma SelectionRespectsSlots(c: Candidates, settings: Timer.Settings)
    ensures var slots := if settings.enableSubtaskLimit then settings.subtaskCount else 9999;
      var k := Taken(|c.open|, slots);
      var r := Selection(c, settings);
      var sc, st := settings.showCompletedSubtasks, settings.showCompletedToday;
      && r[..k] == c.open[..k]
      && (k < |c.open| ==> k == (if slots < 0 then 0 else slots))
      && k + SlotUsers(r[k..], st) <= (if slots < 0 then 0 else slots)
      && (forall x :: x in r[k..] ==> x in c.done && Shown(x, sc))
      && (forall x :: x in c.done && x.isSession ==> x in r)
      && (forall x :: x in c.done && Shown(x, sc) && Bypasses(x, st) ==> x in r)
      && (forall x :: x in c.done && Shown(x, sc) && x !in r ==>
            k + SlotUsers(r[k..], st) == (if slots < 0 then 0 else slots))
      && (k < |c.open| ==> forall x :: x in r[k..] ==> Bypasses(x, st))
  {
    var slots := if settings.enableSubtaskLimit then settings.subtaskCount else 9999;
    var k := Taken(|c.open|, slots);
    var rest := PickDone(c.done, slots - k, settings.showCompletedSubtasks, settings.showCompletedToday);
    ConcatParts(c.open[..k], rest);
    PickDoneSpec(c.done, slots - k, settings.showCompletedSubtasks, settings.showCompletedToday);
    if k < |c.open| {
      NoSlotsOnlyBypass(c.done, slots - k, settings.showCompletedSubtasks, settings.showCompletedToday);
    }
  }

  lemma ConcatParts(p: seq<SubtaskItem>, q: seq<SubtaskItem>)
    ensures (p + q)[..|p|] == p && (p + q)[|p|..] == q
    ensures forall x :: x in q ==> x in p + q
    ensures forall x :: x !in p + q ==> x !in q
  {
  }

  /** The completed subtasks picked are shown ones from the candidates; every
      shown one that bypasses the limit (every one ticked in this session
      among them) is picked; no more of them take a slot than there are
      slots; and a shown one is left out only when every slot is taken. */
  lemma {:induction false} PickDoneSpec(done: seq<SubtaskItem>, slots: int, showCompleted: bool, showToday: bool)
    ensures var r := PickDone(done, slots, showCompleted, showToday);
      && (forall x :: x in r ==> x in done && Shown(x, showCompleted))
      && (forall x :: x in done && x.isSession ==> x in r)
      && (forall x :: x in done && Shown(x, showCompleted) && Bypasses(x, showToday) ==> x in r)
      && SlotUsers(r, showToday) <= (if slots < 0 then 0 else slots)
      && (forall x :: x in done && Shown(x, showCompleted) && x !in r ==>
            SlotUsers(r, showToday) == (if slots < 0 then 0 else slots))
  {
    if done != [] {
      var x := done[0];
      var next := if Shown(x, showCompleted) && !Bypasses(x, showToday) && slots > 0 then slots - 1 else slots;
      PickDoneSpec(done[1..], next, showCompleted, showToday);
      PickDoneStep(done, slots, showCompleted, showToday, next);
    }
  }

  /** One step of `PickDoneSpec`: the picks of the first candidate and of the
      rest, with the slots the rest is left. */
  lemma PickDoneStep(done: seq<SubtaskItem>, slots: int, showCompleted: bool, showToday: bool, next: int)
    requires done != []
    requires next == if Shown(done[0], showCompleted) && !Bypasses(done[0], showToday) && slots > 0 then slots - 1 else slots
    requires var rest := PickDone(done[1..], next, showCompleted, showToday);
      && (forall x :: x in rest ==> x in done[1..] && Shown(x, showCompleted))
      && (forall x :: x in done[1..] && Shown(x, showCompleted) && Bypasses(x, showToday) ==> x in rest)
      && SlotUsers(rest, showToday) <= (if next < 0 then 0 else next)
      && (forall x :: x in done[1..] && Shown(x, showCompleted) && x !in rest ==>
            SlotUsers(rest, showToday) == (if next < 0 then 0 else next))
    ensures var r := PickDone(done, slots, showCompleted, showToday);
      && (forall x :: x in r ==> x in done && Shown(x, showCompleted))
      && (forall x :: x in done && x.isSession ==> x in r)
      && (forall x :: x in done && Shown(x, showCompleted) && Bypasses(x, showToday) ==> x in r)
      && SlotUsers(r, showToday) <= (if slots < 0 then 0 else slots)
      && (forall x :: x in done && Shown(x, showCompleted) && x !in r ==>
            SlotUsers(r, showToday) == (if slots < 0 then 0 else slots))
  {
    var x := done[0];
    var rest := PickDone(done[1..], next, showCompleted, showToday);
    var r := PickDone(done, slots, showCompleted, showToday);
    assert done == [x] + done[1..];
    if Shown(x, showCompleted) && (Bypasses(x, showToday) || slots > 0) {
      assert r == [x] + rest;
      assert r[1..] == rest;
    } else {
      assert r == rest;
    }
  }

  /** With no slot left only the subtasks that bypass the limit are shown. */
  lemma {:induction false} NoSlotsOnlyBypass(done: seq<SubtaskItem>, slots: int, showCompleted: bool, showToday: bool)
    requires slots <= 0
    ensures forall x :: x in PickDone(done, slots, showCompleted, showToday) ==> Bypasses(x, showToday)
  {
    if done != [] {
      NoSlotsOnlyBypass(done[1..], slots, showCompleted, showToday);
    }
  }

  /** `PickDone` on the completed subtasks from index `j` on, one step. */
  lemma PickDoneAt(done: seq<SubtaskItem>, j: nat, slots: int, showCompleted: bool, showToday: bool)
    requires j < |done|
    ensures var x, rest := done[j], done[j + 1..];
      PickDone(done[j..], slots, showCompleted, showToday)
      == if !Shown(x, showCompleted) then PickDone(rest, slots, showCompleted, showToday)
         else if Bypasses(x, showToday) then [x] + PickDone(rest, slots, showCompleted, showToday)
         else if slots > 0 then [x] + PickDone(rest, slots - 1, showCompleted, showToday)
         else PickDone(rest, slots, showCompleted, showToday)
  {
    assert done[j..][0] == done[j] && done[j..][1..] == done[j + 1..];
  }

  lemma AppendAssoc(a: seq<SubtaskItem>, x: SubtaskItem, b: seq<SubtaskItem>)
    ensures a + [x] + b == a + ([x] + b)
  {
  }

  /** The first selection loop of `renderSubtasks`: open subtasks while
      slots remain, each taking one. */
  method TakeOpen(open: seq<SubtaskItem>, slots0: int) returns (taken: seq<SubtaskItem>, slots: int)
    ensures taken == open[..Taken(|open|, slots0)]
    ensures slots == slots0 - Taken(|open|, slots0)
  {
    slots := slots0;
    taken := [];
    var i := 0;
    while i < |open|
      invariant 0 <= i <= |open|
      invariant taken == open[..Taken(i, slots0)]
      invariant slots == slots0 - Taken(i, slots0)
    {
      if slots > 0 {
        taken := taken + [open[i]];
        slots := slots - 1;
      }
      i := i + 1;
    }
  }

  /** The second selection loop: completed subtasks that are shown, taking a
      slot unless they bypass the limit. */
  method TakeDone(done: seq<SubtaskItem>, slots0: int, showCompleted: bool, showToday: bool)
    returns (taken: seq<SubtaskItem>)
    ensures taken == PickDone(done, slots0, showCompleted, showToday)
  {
    var slots := slots0;
    taken := [];
    var j := 0;
    while j < |done|
      invariant 0 <= j <= |done|
      invariant PickDone(done, slots0, showCompleted, showToday)
                == taken + PickDone(done[j..], slots, showCompleted, showToday)
    {
      var task := done[j];
      PickDoneAt(done, j, slots, showCompleted, showToday);
      var shouldShow := showCompleted || task.isSession;
      if shouldShow {
        var bypassLimit := (showToday && task.isToday) || task.isSession;
        if bypassLimit {
          AppendAssoc(taken, task, PickDone(done[j + 1..], slots, showCompleted, showToday));
          taken := taken + [task];
        } else if slots > 0 {
          AppendAssoc(taken, task, PickDone(done[j + 1..], slots - 1, showCompleted, showToday));
          taken := taken + [task];
          slots := slots - 1;
        }
      }
      j := j + 1;
    }
    assert done[j..] == [];
  }

  /** Step 3 of `renderSubtasks`. */
  method SelectSubtasks(c: Candidates, settings: Timer.Settings) returns (finalTasks: seq<SubtaskItem>)
    ensures finalTasks == Selection(c, settings)
  {
    var slots := if settings.enableSubtaskLimit then settings.subtaskCount else 9999;
    var unchecked, left := TakeOpen(c.open, slots);
    var checked := TakeDone(c.done, left, settings.showCompletedSubtasks, settings.showCompletedToday);
    finalTasks := unchecked + checked;
  }

  // ---------------------------------------------------------------------------
  // Ticking and unticking a subtask.

  /** The line edit of `toggleSubtask`: ticking replaces the first `[ ]` with
      `[x]`; unticking replaces the first `[x]` and then the first `[X]` with
      `[ ]`.  Only the blank inside a box changes: ticking writes `x` over a
      space, unticking a space over `x` or `X`. */
  function ToggleLine(line: string, checked: bool): (r: string)
    ensures |r| == |line|
    ensures forall k :: 0 <= k < |line| && r[k] != line[k] ==>
              if checked then line[k] == ' ' && r[k] == 'x' else (line[k] == 'x' || line[k] == 'X') && r[k] == ' '
  {
    if checked then
      BoxEdit(line, "[ ]", "[x]");
      ReplaceFirst(line, "[ ]", "[x]")
    else
      var once := ReplaceFirst(line, "[x]", "[ ]");
      BoxEdit(line, "[x]", "[ ]");
      BoxEdit(once, "[X]", "[ ]");
      ReplaceFirst(once, "[X]", "[ ]")
  }

  /** `list.filter(t => t !== text)`. */
  function Without(list: seq<string>, text: string): (r: seq<string>)
    ensures text !in r
    ensures forall t :: t != text ==> multiset(r)[t] == multiset(list)[t]
  {
    if list == [] then []
    else
      assert list == [list[0]] + list[1..];
      (if list[0] != text then [list[0]] else []) + Without(list[1..], text)
  }

  /** A replacement of a three-character pattern by another keeps the length
      and changes at most the characters of the first occurrence. */
  lemma ReplaceThree(line: string, p: string, q: string)
    requires |p| == 3 && |q| == 3
    ensures |ReplaceFirst(line, p, q)| == |line|
    ensures IndexOf(line, p).None? ==> ReplaceFirst(line, p, q) == line
    ensures IndexOf(line, p).Some? ==>
              var b := IndexOf(line, p).value;
              ReplaceFirst(line, p, q)[b..b + 3] == q
              && forall k :: 0 <= k < |line| && !(b <= k < b + 3) ==> ReplaceFirst(line, p, q)[k] == line[k]
  {
    if IndexOf(line, p).Some? {
      var b := IndexOf(line, p).value;
      var r := ReplaceFirst(line, p, q);
      assert r == line[..b] + q + line[b + 3..];
      forall k | 0 <= k < |line| && !(b <= k < b + 3) ensures r[k] == line[k] {
        if k < b {
          assert r[k] == line[..b][k];
        } else {
          assert r[k] == line[b + 3..][k - b - 3];
        }
      }
    }
  }

  /** Replacing one box by another that differs only in its middle character
      keeps the length and changes at most that character. */
  lemma BoxEdit(line: string, p: string, q: string)
    requires |p| == 3 && |q| == 3 && p[0] == q[0] && p[2] == q[2]
    ensures |ReplaceFirst(line, p, q)| == |line|
    ensures forall k :: 0 <= k < |line| && ReplaceFirst(line, p, q)[k] != line[k] ==>
              line[k] == p[1] && ReplaceFirst(line, p, q)[k] == q[1]
  {
    if IndexOf(line, p).Some? {
      var b := IndexOf(line, p).value;
      var r := line[..b] + q + line[b + 3..];
      assert ReplaceFirst(line, p, q) == r;
      assert line[b..b + 3] == p;
      forall k | 0 <= k < |line| ensures r[k] == line[k] || (line[k] == p[1] && r[k] == q[1]) {
        if k < b {
          assert r[k] == line[..b][k];
        } else if k < b + 3 {
          assert r[k] == q[k - b] && line[k] == line[b..b + 3][k - b];
        } else {
          assert r[k] == line[b + 3..][k - b - 3];
        }
      }
    }
  }

  /** Ticking changes only the blank of the first `[ ]`, to `x`. */
  lemma TickLine(line: string)
    ensures IndexOf(line, "[ ]").None? ==> ToggleLine(line, true) == line
    ensures IndexOf(line, "[ ]").Some? ==>
              ToggleLine(line, true) == line[IndexOf(line, "[ ]").value + 1 := 'x']
  {
    var r := ToggleLine(line, true);
    assert r == ReplaceFirst(line, "[ ]", "[x]");
    if IndexOf(line, "[ ]").Some? {
      var b := IndexOf(line, "[ ]").value;
      assert line[b..b + 3] == "[ ]";
      assert "[x]" == [line[b], 'x', line[b + 2]] by {
        assert line[b] == line[b..b + 3][0] && line[b + 2] == line[b..b + 3][2];
      }
      SpliceMiddle(line, b, 'x');
    }
  }

  /** Unticking blanks the middle of the first `[x]`, then the middle of the
      first `[X]` of what that leaves; nothing else changes. */
  lemma UntickLine(line: string)
    ensures var once := if IndexOf(line, "[x]").Some? then line[IndexOf(line, "[x]").value + 1 := ' '] else line;
            ToggleLine(line, false)
            == if IndexOf(once, "[X]").Some? then once[IndexOf(once, "[X]").value + 1 := ' '] else once
  {
    SwapMiddle(line, "[x]", "[ ]");
    SwapMiddle(ReplaceFirst(line, "[x]", "[ ]"), "[X]", "[ ]");
  }

  /** Replacing the first box `p` by a box `q` with the same brackets is an
      update of the middle index of that box, or nothing when `p` is absent. */
  lemma SwapMiddle(line: string, p: string, q: string)
    requires |p| == 3 && |q| == 3 && p[0] == q[0] && p[2] == q[2]
    ensures IndexOf(line, p).None? ==> ReplaceFirst(line, p, q) == line
    ensures IndexOf(line, p).Some? ==> ReplaceFirst(line, p, q) == line[IndexOf(line, p).value + 1 := q[1]]
  {
    if IndexOf(line, p).Some? {
      var b := IndexOf(line, p).value;
      assert line[b..b + 3] == p;
      assert q == [line[b], q[1], line[b + 2]] by {
        assert line[b] == line[b..b + 3][0] && line[b + 2] == line[b..b + 3][2];
      }
      SpliceMiddle(line, b, q[1]);
    }
  }

  /** Putting back the three characters at `b` with the middle one replaced
      is an update of that one index. */
  lemma SpliceMiddle(line: string, b: nat, c: char)
    requires b + 3 <= |line|
    ensures line[..b] + [line[b], c, line[b + 2]] + line[b + 3..] == line[b + 1 := c]
  {
    var r := line[..b] + [line[b], c, line[b + 2]] + line[b + 3..];
    forall k | 0 <= k < |line| ensures r[k] == line[b + 1 := c][k] {
      if k < b {
        assert r[k] == line[..b][k];
      } else if b + 3 <= k {
        assert r[k] == line[b + 3..][k - b - 3];
      }
    }
  }

  /** Ticking a line whose first box is open and that has no `[x]` before it
      and no `[X]`, then unticking it, gives back the line. */
  lemma TickThenUntick(line: string)
    requires IndexOf(line, "[ ]").Some?
    requires forall j :: 0 <= j < IndexOf(line, "[ ]").value ==> !At(line, "[x]", j)
    requires IndexOf(line, "[X]").None?
    ensures ToggleLine(ToggleLine(line, true), false) == line
  {
    var b := IndexOf(line, "[ ]").value;
    TickedBoxFirst(line, b);
    UntickRestores(line, b);
  }

  /** After the tick, the box it wrote is the first `[x]` of the line. */
  lemma TickedBoxFirst(line: string, b: nat)
    requires IndexOf(line, "[ ]") == Some(b)
    requires forall j :: 0 <= j < b ==> !At(line, "[x]", j)
    ensures b + 3 <= |line| && line[b + 1] == ' '
    ensures ToggleLine(line, true) == line[b + 1 := 'x']
    ensures IndexOf(line[b + 1 := 'x'], "[x]") == Some(b)
  {
    var t := ToggleLine(line, true);
    TickLine(line);
    assert line[b..b + 3] == "[ ]";
    assert line[b] == '[' && line[b + 1] == ' ' && line[b + 2] == ']' by {
      assert line[b] == line[b..b + 3][0] && line[b + 1] == line[b..b + 3][1] && line[b + 2] == line[b..b + 3][2];
    }
    assert t[b..b + 3] == "[x]";
    assert t[b] == '[';
    forall j | 0 <= j < b ensures !At(t, "[x]", j) {
      if j + 3 <= b {
        assert t[j..j + 3] == line[j..j + 3];
        assert !At(line, "[x]", j);
      } else if j + 1 == b {
        assert j + 3 <= |t| ==> t[j..j + 3][1] == t[b];
      } else {
        assert j + 3 <= |t| ==> t[j..j + 3][2] == t[b];
      }
    }
    assert At(t, "[x]", b);
  }

  /** Unticking the first `[x]`, written over the blank of a `[ ]`, gives back
      the line. */
  lemma UntickRestores(line: string, b: nat)
    requires b + 3 <= |line| && line[b + 1] == ' '
    requires IndexOf(line[b + 1 := 'x'], "[x]") == Some(b)
    ensures ReplaceFirst(line[b + 1 := 'x'], "[x]", "[ ]") == line
  {
    var t := line[b + 1 := 'x'];
    var u := ReplaceFirst(t, "[x]", "[ ]");
    ReplaceThree(t, "[x]", "[ ]");
    forall k | 0 <= k < |line| ensures u[k] == line[k] {
      if b <= k < b + 3 {
        assert u[k] == u[b..b + 3][k - b];
        assert t[k] == t[b..b + 3][k - b];
      }
    }
  }

  /** `toggleSubtask` on the file's lines: when `lineIdx` is a line of the
      document, the line is edited in place and the text is pushed onto, or
      filtered out of, the session's completed subtasks. */
  method ToggleSubtask(service: Timer.TimerService, lines: array<string>, lineIdx: nat, text: string, checked: bool)
    returns (written: bool)
    requires service.Valid()
    modifies lines, service`session
    ensures service.Valid()
    ensures written == (lineIdx < lines.Length)
    ensures !written ==> lines[..] == old(lines[..]) && service.session == old(service.session)
    ensures written ==> lines[..] == old(lines[..])[lineIdx := ToggleLine(old(lines[lineIdx]), checked)]
    ensures written ==> service.session == old(service.session).(completedSubtasks :=
              if checked then old(service.session.completedSubtasks) + [text]
              else Without(old(service.session.completedSubtasks), text))
  {
    if lines.Length <= lineIdx {
      return false;
    }
    var line := lines[lineIdx];
    if checked {
      line := ReplaceFirst(line, "[ ]", "[x]");
      service.session := service.session.(completedSubtasks := service.session.completedSubtasks + [text]);
    } else {
      line := ReplaceFirst(ReplaceFirst(line, "[x]", "[ ]"), "[X]", "[ ]");
      service.session := service.session.(completedSubtasks := Without(service.session.completedSubtasks, text));
    }
    lines[lineIdx] := line;
    return true;
  }
}
